=== FILE: README.md ===
# raw-editor core, modelled in Dafny

raw-editor is a browser RAW photo editor. Its core is a WebAssembly image module written in Rust, plus two small pieces of front-end state. This project models those parts.

**The raw processor.** `decode_raw_image` obtains a decoder for the RAW bytes, reads the metadata, extracts the sensor image and develops it. It then normalises orientation from the EXIF tag, sending a named progress event at each step. `ImageProcessor` keeps the decoded original immutable and records every edit in an append-only log. On `apply_operations` / `process` it:
- deduplicates the log by operation kind, so the last write wins;
- applies the survivors to a fresh copy of the original in the fixed order Exposure, Contrast, Rotation;
- records the edited dimensions;
- returns an RGBA8 byte buffer.

Operation kinds are compared and hashed by enum discriminant only.

**Older code paths.** These are also modelled:
- the `Editor` / `Edits` pair, with an 8-bit exposure loop and a rotation step;
- the prototype `MyRawImage` module (`rust-raw/lib.rs`), with its own decode, quarter-turn rotation, brighten and RGBA8 read-out.

**Front end.** Two pieces of state are modelled:
- the per-file operation store (`imageOperations.ts`);
- the double-tap action (`dblTapAction.ts`).

Modules:

| file | module | models |
|---|---|---|
| wrappers.dfy | Wrappers | `Option` / `Result` |
| channels.dfy | Channels | sample types, `clamp`, Rust's saturating float→unsigned `as`, 16→8-bit down-conversion |
| grids.dfy | Grids | row-major pixel grids, the image library's clockwise rotations as index maps |
| images.dfy | Images | decoded 16-bit RGB images and the `into_rgba8().to_vec()` buffer layout |
| operation_types.dfy | OperationTypes | `OperationType`, its discriminant equality and hash |
| decoding.dfy | Decoding | `decode.rs`: step order, error order, event trace, orientation |
| image_processing.dfy | ImageProcessing | `ImageProcessor`: pixel formulas, the log, dedup, fixed-order render, dimensions |
| edit_settings.dfy | EditSettings | `Edits` |
| editing.dfy | Editing | `Editor` (as written, plus a corrected rotation) |
| rust_raw.dfy | RustRaw | the prototype `MyRawImage` module |
| image_operations.dfy | ImageOperations | the per-file operation store |
| double_tap.dfy | DoubleTap | the double-tap click handler |

Under the code's contrast formula (pivot 65535/2 = 32767.5, then truncation), mid-grey 32767 is left unchanged only for -2 < contrast ≤ 0; `ImageProcessing.ContrastMidGreyFixedIff` proves it.

## Model

| member | source | states |
|---|---|---|
| Channels.Clamp | raw-processor/image_processor.rs:123-124 | result lies in [lo, hi]; it equals v inside the range and the nearer bound outside |
| Channels.FloatToUnsigned | raw-processor/image_processor.rs:123-125 | the `as u16` cast truncates toward zero and saturates: the result is ≤ max, is the floor of v in range, is 0 below 1 and is max at or above max |
| Channels.To8 | raw-processor/image_processor.rs:108 | the 8-bit sample is the nearest to v/257: 257r-128 ≤ v < 257r+129 |
| Channels.To8RoundTrip | raw-processor/image_processor.rs:108 | every exact multiple 257·b of an 8-bit value b narrows back to b |
| Channels.To8Monotone | raw-processor/image_processor.rs:108 | down-conversion preserves sample order |
| Grids.MapPixels | raw-processor/image_processor.rs:115-130 | a per-pixel rewrite keeps the dimensions and sets pixel (x, y) to f of the old pixel (x, y) |
| Grids.Rotate90 | raw-processor/image_processor.rs:139 | a quarter turn swaps the dimensions and moves pixel (x, y) to column h-1-y of row x |
| Grids.Rotate180 | raw-processor/image_processor.rs:140 | a half turn keeps the dimensions and moves pixel (x, y) to (w-1-x, h-1-y) |
| Grids.Rotate270 | raw-processor/image_processor.rs:141 | three quarter turns swap the dimensions and move pixel (x, y) to column y of row w-1-x |
| Grids.Rotate90Twice | raw-processor/image_processor.rs:139-140 | two quarter turns are a half turn |
| Grids.Rotate270Then90 | raw-processor/image_processor.rs:139-141 | a quarter turn undoes three quarter turns |
| Grids.Rotate90Then270 | raw-processor/image_processor.rs:139-141 | three quarter turns undo a quarter turn |
| Grids.Rotate180Twice | raw-processor/image_processor.rs:140 | a half turn undoes itself |
| Grids.Rotate90FourTimes | rust-raw/lib.rs:95-104 | four quarter turns give back the original image |
| Grids.MapRotate90Pixel | raw-processor/image_processor.rs:92-104 | at every position, rewriting then turning gives the same pixel as turning then rewriting |
| Grids.MapCommutesWithRotate90 | raw-processor/image_processor.rs:92-104 | a per-pixel rewrite and a quarter turn commute, so pixel edits are position-independent |
| Images.Serialize | raw-processor/image_processor.rs:108 | the RGBA8 buffer of a valid image holds exactly four bytes per pixel |
| Images.SerializeLayout | raw-processor/image_processor.rs:108 | the buffer has 4·w·h bytes; pixel (x, y) occupies bytes 4(w·y+x)..+4 as down-converted R, G, B and alpha 255 |
| Images.SerializePixel | raw-processor/image_processor.rs:108 | the bytes of one pixel lie inside the buffer and read back as that pixel's RGBA8 value |
| OperationTypes.Discriminant | raw-processor/operation_type.rs:3-11 | discriminants lie in 0..3, and the three declared variants keep 0..2, so adding Contrast changes none of the source's discriminants |
| OperationTypes.Eq | raw-processor/operation_type.rs:13-18 | discriminant equality holds exactly for the same variant |
| OperationTypes.Hash | raw-processor/operation_type.rs:22-27 | hashing writes exactly one value, the discriminant, after the existing state and changes nothing before it |
| OperationTypes.EqIsEquivalence | raw-processor/operation_type.rs:20 | the `Eq` marker is justified: equality is reflexive, symmetric and transitive |
| OperationTypes.EqualKindsHashEqually | raw-processor/operation_type.rs:22-27 | equal kinds feed the hasher identically from any state, consistent with `Eq` |
| OperationTypes.DeclaredKindsAreClosed | raw-processor/operation_type.rs:3-11 | the enum declares exactly Exposure, WhiteBalance and Rotation |
| Decoding.Orient | raw-processor/decode.rs:49-53 | tags 5/6 give a quarter turn and 7/8 three quarter turns (dimensions swapped, pixel map given); any other tag leaves the image |
| Decoding.DecodeRawImage | raw-processor/decode.rs:12-61 | events emitted are always a prefix of the six-step trace; success exactly when all six were emitted; each failure (no decoder, metadata, extraction, development) is reported with its own reason after exactly 1, 2, 3 or 5 events; when every step succeeds the result is the developed image oriented by the tag, with the metadata, after all six events |
| Decoding.NoDecoderFailsFirst | raw-processor/decode.rs:58-60 | without a decoder, the call fails after one event with "Could not get decoder for rawfile" |
| Decoding.MetadataFailureComesFirst | raw-processor/decode.rs:19-23 | a metadata error is returned as is, whatever the sensor image and developer would do |
| Decoding.ExtractionFailureComesBeforeDevelopment | raw-processor/decode.rs:28-31 | an extraction error is returned as is, whatever the developer would do |
| Decoding.SuccessIsOrientedDevelopment | raw-processor/decode.rs:38-57 | a successful result is the developed image oriented by the metadata's tag |
| Decoding.EventNamesDistinct | raw-processor/decode.rs:13-55 | the six progress events have pairwise distinct names |
| ImageProcessing.ExposeChannel | raw-processor/image_processor.rs:120-125 | exposure 0 is the identity and -0.5 is black; positive values never darken and negative values never brighten; overflow saturates at 65535; a product below 1 (including every negative one) gives 0; in range the result is within 1 below v·(1+2·value) |
| ImageProcessing.ExposureScale | raw-processor/image_processor.rs:120-123 | the unscaled product is at least the sample for value ≥ 0, between 0 and the sample for -0.5 ≤ value ≤ 0, and at most 0 from -0.5 down |
| ImageProcessing.ContrastChannel | raw-processor/image_processor.rs:158-162 | contrast 0 is the identity and -1 sends every sample to 32767; positive contrast pushes samples away from mid-grey; contrast in [-1, 0] pulls them toward mid-grey without crossing it; the result is the curve clamped to [0, 65535] and truncated: 65535 at or above the top, 0 below 1, otherwise within 1 below the curve |
| ImageProcessing.ContrastCurve | raw-processor/image_processor.rs:160-161 | the unclamped curve is the identity at contrast 0 and collapses every sample to the pivot 32767.5 at contrast -1 |
| ImageProcessing.ContrastCurveSymmetric | raw-processor/image_processor.rs:160-161 | the curve is symmetric about the pivot: the mirror 65535-v of a sample maps to the mirror of its image |
| ImageProcessing.ContrastStretches | raw-processor/image_processor.rs:160-161 | for contrast ≥ 0 the unclamped curve moves samples above the pivot 32767.5 up and samples below it down |
| ImageProcessing.ContrastCompresses | raw-processor/image_processor.rs:160-161 | for contrast in [-1, 0] the unclamped curve moves samples toward the pivot 32767.5 without crossing it |
| ImageProcessing.ContrastMidGreyFixedIff | raw-processor/image_processor.rs:160-161 | sample 32767 is fixed exactly when -2 < contrast ≤ 0 |
| ImageProcessing.ExposeImage | raw-processor/image_processor.rs:115-130 | all three channels of every pixel are exposed; dimensions kept |
| ImageProcessing.ContrastImage | raw-processor/image_processor.rs:152-166 | all three channels of every pixel are contrast-adjusted; dimensions kept |
| ImageProcessing.RotateImage | raw-processor/image_processor.rs:138-143 | 90, 180 and 270 are the clockwise quarter, half and three-quarter turns, each with its pixel map (90 and 270 swap the dimensions, 180 keeps them); any other angle is a no-op |
| ImageProcessing.ExposureZeroIsIdentity | raw-processor/image_processor.rs:120-129 | exposure 0 leaves the image unchanged |
| ImageProcessing.ExposureMinusHalfIsBlack | raw-processor/image_processor.rs:120-129 | exposure -0.5 makes every pixel black |
| ImageProcessing.ContrastZeroIsIdentity | raw-processor/image_processor.rs:158-165 | contrast 0 leaves the image unchanged |
| ImageProcessing.Apply | raw-processor/image_processor.rs:111-169 | running an operation's closure changes the shape only for a 90 or 270 rotation, where width and height swap; exposure 0 and contrast 0 leave the image unchanged |
| ImageProcessing.Resolve | raw-processor/image_processor.rs:83-85 | every logged kind survives dedup, and each survivor is a logged operation of its own kind |
| ImageProcessing.ResolvedKinds | raw-processor/image_processor.rs:83-85 | a kind survives dedup exactly when some logged operation has that kind |
| ImageProcessing.ResolveKeepsLast | raw-processor/image_processor.rs:80-85 | the survivor for a kind is the last logged operation of that kind |
| ImageProcessing.NewestFirstAgreesWithResolve | raw-processor/image_processor.rs:80-85 | a newest-first scan that keeps the first of each kind resolves to the same map as the oldest-first overwrite |
| ImageProcessing.ResolveAppend | raw-processor/image_processor.rs:83-85 | dedup of a concatenation is the first part's dedup overridden by the second's |
| ImageProcessing.ResolveSingle | raw-processor/image_processor.rs:83-85 | a one-operation log resolves to that operation under its kind |
| ImageProcessing.SupersededOperationIsInert | raw-processor/image_processor.rs:80-85 | an operation followed later by one of the same kind can be removed without changing the dedup |
| ImageProcessing.OverriddenEntryIsInert | raw-processor/image_processor.rs:84 | a map insert that a later insert of the same key overrides has no effect |
| ImageProcessing.UpdateAfterUnion | raw-processor/image_processor.rs:83-85 | inserting into a union of maps is inserting into its right operand, so one more logged operation extends the later part of the dedup |
| ImageProcessing.DistinctKindsCommute | raw-processor/image_processor.rs:83-104 | swapping two adjacent operations of different kinds does not change what is applied |
| ImageProcessing.ApplyResolved | raw-processor/image_processor.rs:92-104 | with no surviving operations the image is unchanged; width and height swap exactly when the surviving rotation is a 90 or 270 turn |
| ImageProcessing.Render | raw-processor/image_processor.rs:83-108 | an empty log renders the original; the render's dimensions are the original's, swapped exactly when the last logged rotation is a 90 or 270 turn |
| ImageProcessing.ExposureAppliedBeforeContrast | raw-processor/image_processor.rs:92-97 | contrast issued before exposure is still applied after it |
| ImageProcessing.LastOfKindResolve | raw-processor/image_processor.rs:80-85 | for every log and kind, the dedup map holds exactly the newest logged operation of that kind, and nothing when none was logged |
| ImageProcessing.RenderFixedOrder | raw-processor/image_processor.rs:92-104 | for every log, a render applies the newest exposure, then the newest contrast, then the newest rotation, skipping kinds never logged, whatever the issue order |
| ImageProcessing.RotationAppliedLast | raw-processor/image_processor.rs:92-104 | rotation issued first is still applied after exposure |
| ImageProcessing.EmptyLogRendersOriginal | raw-processor/image_processor.rs:87-104 | with no operations the rendered image is the original |
| ImageProcessing.New | raw-processor/image_processor.rs:35-48 | fails exactly when decoding fails, with the same error; otherwise the log is empty, the image and metadata are the decoded ones, and original and edited dimensions both equal the decoded image's |
| ImageProcessing.SetExposure | raw-processor/image_processor.rs:111-133 | appends exactly one exposure operation carrying the value; the old log and every other field are kept |
| ImageProcessing.SetContrast | raw-processor/image_processor.rs:147-169 | appends exactly one contrast operation carrying the value; the old log and every other field are kept |
| ImageProcessing.SetRotation | raw-processor/image_processor.rs:135-145 | appends exactly one rotation operation carrying the angle; the old log and every other field are kept |
| ImageProcessing.ApplyOperations | raw-processor/image_processor.rs:76-109 | only the edited dimensions change, to those of the render from the original; the buffer is the render's RGBA8 bytes, 4·w·h long |
| ImageProcessing.ApplyOperationsIdempotent | raw-processor/image_processor.rs:87 | rendering twice with no edit in between gives the same state and bytes, because each render starts from the original |
| ImageProcessing.NoEditsRenderOriginal | raw-processor/image_processor.rs:87-108 | with an empty log the bytes are the original's and the edited dimensions are the original ones |
| ImageProcessing.LastExposureWins | raw-processor/image_processor.rs:80-94 | two exposure edits render the same bytes and dimensions as the second alone |
| ImageProcessing.RotationDimensions | raw-processor/image_processor.rs:102-107 | edited dimensions are the original's swapped exactly when the surviving rotation is 90 or 270; original dimensions never change |
| ImageProcessing.LastRotationWins | raw-processor/image_processor.rs:102-107 | rotating 90 then 270 swaps the dimensions once, not twice |
| EditSettings.New | raw-processor/edits.rs:13-19 | a fresh record has exposure 0 and rotation 0 |
| EditSettings.SetExposure | raw-processor/edits.rs:21-28 | the getter returns the value set; rotation is untouched |
| EditSettings.SetRotation | raw-processor/edits.rs:29-36 | the getter returns the value set; exposure is untouched |
| EditSettings.LastSetWins | raw-processor/edits.rs:25-36 | setting a field twice is the same as setting it once to the second value |
| Editing.ExposeChannel8 | raw-processor/editor.rs:51-53 | multiplier 0 is the identity; the sign of the multiplier decides brighten or darken; ≤ -1 is black; overflow saturates at 255; in range the result is within 1 below v·(1+multiplier) |
| Editing.ExposeChannel8Monotone | raw-processor/editor.rs:51-53 | for every multiplier, a brighter input sample never comes out darker |
| Editing.ExposePixel8 | raw-processor/editor.rs:49-54 | red, green and blue are each exposed; alpha is carried over unchanged |
| Editing.Exposure | raw-processor/editor.rs:15-60 | the nested loop replaces every pixel by its exposed version, and only that; dimensions kept |
| Editing.RotateImage | raw-processor/editor.rs:62-69 | as written, the caller's image comes back unchanged for every rotation |
| Editing.RotateImageIntended | raw-processor/editor.rs:62-69 | the rotated image replaces the input: 90/180/270 are the clockwise turns with their pixel maps and dimensions, others leave the image |
| Editing.RotationIsDiscarded | raw-processor/editor.rs:62-69 | a 2×1 image asked to turn 90° stays 2 wide as written but becomes 1 wide as intended |
| Editing.Process | raw-processor/editor.rs:71-78 | as written, the output is the exposed image in its original shape whatever the rotation |
| Editing.ProcessIntended | raw-processor/editor.rs:71-78 | exposure, then rotation: for 90, 180 and 270 each exposed pixel lands at its rotated position, with the dimensions swapped for 90/270 and kept for 180; any other rotation (including the default 0) gives the exposed image in place |
| RustRaw.RotateImage | rust-raw/lib.rs:95-104 | the stored image becomes its quarter turn: width and height swap, pixel map given, metadata kept |
| RustRaw.FourRotationsRestore | rust-raw/lib.rs:95-104 | four calls of `rotate_image` restore the original |
| RustRaw.ImageAsRgba8 | rust-raw/lib.rs:85-93 | 4·w·h bytes; each pixel reads back as its down-converted RGB and opaque alpha |
| RustRaw.BrightenChannel | rust-raw/lib.rs:106-112 | brightening never darkens; it adds the amount exactly unless that overflows, in which case it saturates at 65535 |
| RustRaw.IncreaseExposure | rust-raw/lib.rs:106-112 | dimensions and metadata kept; every colour sample is brightened by 1000 with saturation, so none gets darker |
| RustRaw.DecodeRawImage | rust-raw/lib.rs:134-187 | the same error precedence as the processor's decoder (no decoder, metadata, extraction, development), each with its reason; when every step succeeds, the developed image oriented by the tag together with the metadata |
| RustRaw.AgreesWithProcessorDecode | rust-raw/lib.rs:134-187 | the prototype and the processor decode every file to the same error, or to the same metadata and oriented image |
| ImageOperations.RetrieveOrInitialiseOperations | src/lib/state/imageOperations.ts:33-43 | a known file's operations come back unchanged with the store untouched; an unknown file is added with the defaults, which are returned; no other entry changes |
| ImageOperations.RetrieveIsIdempotent | src/lib/state/imageOperations.ts:33-43 | a second retrieve returns the same operations and leaves the store as the first one did |
| ImageOperations.GetOperationValue | src/lib/state/imageOperations.ts:48-51 | no entry for the current file is an error; a missing key is `undefined`; otherwise the stored value |
| ImageOperations.SetOperationValue | src/lib/state/imageOperations.ts:56-65 | the current file's entry keeps its old keys plus `key`, with `key` set to the value and other keys unchanged; other files untouched |
| ImageOperations.GetAfterSet | src/lib/state/imageOperations.ts:48-65 | reading after setting, for the same file and key, gives the value set |
| ImageOperations.SetLeavesOtherReads | src/lib/state/imageOperations.ts:48-65 | setting one (file, key) changes no read of any other (file, key) of a known file |
| DoubleTap.Handler | src/lib/helpers/dblTapAction.ts:7-16 | the callback fires exactly when 0 < now − last < 300; the last click time becomes now |
| DoubleTap.Clicks | src/lib/helpers/dblTapAction.ts:4-16 | over a run of clicks, click i fires exactly when its gap to the previous click (or to the initial time) is in (0, 300) |
| DoubleTap.SameInstantNeverFires | src/lib/helpers/dblTapAction.ts:9-11 | a second click at the same instant never fires |
| DoubleTap.FirstClickFromInitial | src/lib/helpers/dblTapAction.ts:4-11 | from the initial state, the first click fires only for clock readings 1..299 |

## Left out

- I/O and host bindings: wasm-bindgen glue, `JsValue` conversion, logging, `bind_loggers` and the worker's event dispatch. Decode events are modelled only as the returned trace. The log calls read `get_pixel(0, 0)` (raw-processor/editor.rs:58, rust-raw/lib.rs:90 and 109), which panics on an image with no pixels while logging is on; `Editing.Exposure`, `Editing.Process`, `RustRaw.ImageAsRgba8` and `RustRaw.IncreaseExposure` return their result for such images instead.
- The RAW decoder and developer (rawler) are external. Their outcomes are inputs: the `RawFile` record and a `develop` function. `develop_intermediate(..).unwrap_throw()`, `unwrap()` and `to_dynamic_image().unwrap()` are all modelled as a `DevelopmentFailure` outcome.
- Decoding.DecodeRawImage: the orientation tag is read with `unwrap`, which panics when the tag is absent. The model makes the tag's presence a precondition (`OrientationReadable`) rather than modelling the panic.
- ImageProcessing.New: the source's constructor calls `unwrap_throw` on the decode result, so a decode error is thrown to the host. The model returns that error as a `Failure` outcome instead, since exceptions crossing into the host are outside the model.
- Metadata beyond the orientation tag, and the `metadata()` getters' serde serialisation, are not modelled.
- The width/height getters of `ImageProcessor` and `MyRawImage` are plain field reads. They appear as the datatypes' fields and are not separate functions.
- `f32` arithmetic is modelled over exact reals. Rounding error and NaN/infinite inputs are not modelled; the saturating float-to-unsigned cast is.
- `as_mut_rgb16().unwrap()`: the model's `Image` is always 16-bit RGB, so the panic on other pixel formats is not modelled.
- The image library's internals are taken as given: the clockwise rotation index maps, the (v+128)/257 down-conversion in `into_rgba8`, and `brighten`'s saturating add.
- The `Editor` image is modelled as RGBA8 throughout. The format conversions that `get_pixel`/`put_pixel` perform on other formats are not modelled.
- Dimensions are unbounded naturals rather than `u32`.
- `ping` is the constant `RustRaw.PingReply`. It carries no contract.
- `OperationType` has no `Contrast` variant in its declaration, though `set_contrast` and `apply_operations` use one. The model adds it as a fourth variant; `DeclaredInSource` records which kinds the enum actually declares.
- White balance exists only as a kind in the enum and a commented-out method, so it has no operation.
- The operation store's localStorage persistence and Svelte store subscription are not modelled. Operation names are generalised from the single `exposure` key to strings, and JavaScript prototype keys are ignored.
- The click handler's clock reading is a parameter. Listener registration and `destroy` are not modelled.

## Findings

| source | as written | input that shows it | evidently intended | confidence | as-written member | corrected member |
|---|---|---|---|---|---|---|
| raw-processor/editor.rs:62-69 | `rotate_image` binds the rotated copy to a local and drops it, so `process` returns the image unrotated | a 2×1 image with rotation 90: output stays 2×1 | the rotated image replaces the working image, giving 1×2 | not executed | Editing.RotateImage, Editing.RotationIsDiscarded | Editing.RotateImageIntended, Editing.ProcessIntended |

=== FILE: channels.dfy ===
/** Sample types and the numeric conversions the pixel transforms share:
    unsigned 8- and 16-bit samples, float clamping, Rust's saturating
    float-to-unsigned `as` cast, and the 16-bit to 8-bit down-conversion. */
module Channels {

  const RgbMax8: nat := 255
  const RgbMax16: nat := 65535

  type U8 = x: int | 0 <= x <= 255
  type U16 = x: int | 0 <= x <= 65535

  /** A 16-bit RGB pixel: the working format of the edit pipeline. */
  datatype Rgb16 = Rgb16(r: U16, g: U16, b: U16)

  /** `f32::clamp(lo, hi)`, over the reals. */
  function Clamp(v: real, lo: real, hi: real): (r: real)
    requires lo <= hi
    ensures lo <= r <= hi
    ensures lo <= v <= hi ==> r == v
    ensures v < lo ==> r == lo
    ensures hi < v ==> r == hi
  {
    if v < lo then lo else if hi < v then hi else v
  }

  /** Rust's `v as uN` from a float: truncation toward zero, saturating at
      0 and at `max`. */
  function FloatToUnsigned(v: real, max: nat): (r: nat)
    ensures r <= max
    ensures 0.0 <= v <= max as real ==> r as real <= v < r as real + 1.0
    ensures v < 1.0 ==> r == 0
    ensures max as real <= v ==> r == max
  {
    if v <= 0.0 then 0 else if max as real <= v then max else v.Floor
  }

  /** How scaling a signed distance by a factor moves it. */
  lemma {:induction false} ScaleFacts(d: real, f: real)
    ensures 0.0 <= d && 1.0 <= f ==> d <= d * f
    ensures 0.0 <= d && 0.0 <= f <= 1.0 ==> 0.0 <= d * f <= d
    ensures 0.0 <= d && f <= 0.0 ==> d * f <= 0.0
    ensures d <= 0.0 && 1.0 <= f ==> d * f <= d
    ensures d <= 0.0 && 0.0 <= f <= 1.0 ==> d <= d * f <= 0.0
  {
    assert d * f - d == d * (f - 1.0);
    if 0.0 <= d && 0.0 <= f {
      assert 0.0 <= d * f;
    } else if 0.0 <= d {
      assert d * f <= 0.0;
    } else if 0.0 <= f {
      assert d * f <= 0.0;
    }
  }

  /** Down-conversion of a 16-bit sample to 8 bits, rounding to nearest. */
  function To8(v: U16): (r: U8)
    ensures 257 * r - 128 <= v < 257 * r + 129
  {
    (v + 128) / 257
  }

  /** Down-conversion loses nothing on samples that are exact multiples of
      257, the 16-bit images of the 8-bit values. */
  lemma {:induction false} To8RoundTrip(b: U8)
    ensures To8(257 * b) == b
  {
  }

  /** Down-conversion preserves the order of samples. */
  lemma {:induction false} To8Monotone(v: U16, w: U16)
    requires v <= w
    ensures To8(v) <= To8(w)
  {
  }
}

=== FILE: decoding.dfy ===
/** The decode orchestration of the processor module: obtain a decoder,
    read metadata, extract the sensor image, develop it, then normalise the
    orientation, reporting a named progress event at each step.  The RAW
    decoder and the developer are external; they appear here as the
    `RawFile` outcome record and the `develop` function. */
module Decoding {
  import opened Wrappers
  import opened Channels
  import opened Grids
  import opened Images

  /** The progress events sent to the worker, in the order they can occur. */
  datatype DecodeEvent =
    | ObtainingRaw
    | DecodingMetadata
    | DecodingRaw
    | PreparingRawDeveloper
    | DevelopingRaw
    | Complete

  /** The event's name as dispatched to the host. */
  function EventName(e: DecodeEvent): string
  {
    match e
    case ObtainingRaw => "decode_obtaining_raw"
    case DecodingMetadata => "decode_decoding_metadata"
    case DecodingRaw => "decode_decoding_raw"
    case PreparingRawDeveloper => "decode_preparing_raw_developer"
    case DevelopingRaw => "decode_developing_raw"
    case Complete => "decode_complete"
  }

  /** Every event emitted by a successful decode, in order. */
  const SuccessTrace: seq<DecodeEvent> :=
    [ObtainingRaw, DecodingMetadata, DecodingRaw, PreparingRawDeveloper, DevelopingRaw, Complete]

  /** The decoder's descriptive record, reduced to the one field the decode
      interprets: the EXIF orientation tag (0x0112). */
  datatype Metadata = Metadata(orientation: Option<U16>)

  /** The undeveloped sensor image.  Nothing here inspects it: it is only
      handed to the developer. */
  datatype SensorImage = SensorImage(samples: seq<int>)

  /** What the external decoder yields for a file: its metadata and its
      sensor image, each of which may fail with a reason. */
  datatype Decoder = Decoder(metadata: Result<Metadata, string>, rawImage: Result<SensorImage, string>)

  /** The input bytes, as seen through the external decoder lookup: no
      decoder at all when the format is not recognised. */
  datatype RawFile = RawFile(decoder: Option<Decoder>)

  datatype DecodeError =
    | NoDecoder
    | MetadataFailure(reason: string)
    | ImageExtractionFailure(reason: string)
    | DevelopmentFailure(reason: string)

  /** The error string handed back to the host. */
  function ErrorMessage(e: DecodeError): string
  {
    match e
    case NoDecoder => "Could not get decoder for rawfile"
    case MetadataFailure(reason) => reason
    case ImageExtractionFailure(reason) => reason
    case DevelopmentFailure(reason) => reason
  }

  datatype Decoded = Decoded(metadata: Metadata, image: Image)

  /** A decode's outcome together with the progress events it emitted. */
  datatype DecodeRun = DecodeRun(result: Result<Decoded, DecodeError>, events: seq<DecodeEvent>)

  /** The orientation tag is read with `unwrap`, so it must be present
      whenever decoding gets as far as orienting the developed image. */
  predicate OrientationReadable(file: RawFile, develop: SensorImage -> Result<Image, string>)
  {
    && file.decoder.Some?
    && file.decoder.value.metadata.Success?
    && file.decoder.value.rawImage.Success?
    && develop(file.decoder.value.rawImage.value).Success?
    ==> file.decoder.value.metadata.value.orientation.Some?
  }

  /** Orientation normalisation: tags 5 and 6 turn the image a quarter
      clockwise, 7 and 8 three quarters, every other value leaves it. */
  function Orient(img: Image, orientation: U16): (r: Image)
    ensures orientation == 5 || orientation == 6 ==>
      && r.width == img.height && r.height == img.width
      && forall y, x :: 0 <= y < img.height && 0 <= x < img.width ==> r.rows[x][img.height - 1 - y] == img.rows[y][x]
    ensures orientation == 7 || orientation == 8 ==>
      && r.width == img.height && r.height == img.width
      && forall y, x :: 0 <= y < img.height && 0 <= x < img.width ==> r.rows[img.width - 1 - x][y] == img.rows[y][x]
    ensures !(5 <= orientation <= 8) ==> r == img
  {
    if orientation == 5 || orientation == 6 then Rotate90(img)
    else if orientation == 7 || orientation == 8 then Rotate270(img)
    else img
  }

  /** `decode_raw_image`. */
  function DecodeRawImage(file: RawFile, develop: SensorImage -> Result<Image, string>): (run: DecodeRun)
    requires OrientationReadable(file, develop)
    ensures 1 <= |run.events| <= |SuccessTrace| && run.events == SuccessTrace[..|run.events|]
    ensures run.result.Success? <==> run.events == SuccessTrace
    ensures run.result.Failure? ==>
      && (run.result.error.NoDecoder? <==> |run.events| == 1)
      && (run.result.error.MetadataFailure? <==> |run.events| == 2)
      && (run.result.error.ImageExtractionFailure? <==> |run.events| == 3)
      && (run.result.error.DevelopmentFailure? <==> |run.events| == 5)
    ensures file.decoder.None? ==> run == DecodeRun(Failure(NoDecoder), SuccessTrace[..1])
    ensures file.decoder.Some? && file.decoder.value.metadata.Failure? ==>
      run == DecodeRun(Failure(MetadataFailure(file.decoder.value.metadata.error)), SuccessTrace[..2])
    ensures file.decoder.Some? && file.decoder.value.metadata.Success? && file.decoder.value.rawImage.Failure? ==>
      run == DecodeRun(Failure(ImageExtractionFailure(file.decoder.value.rawImage.error)), SuccessTrace[..3])
    ensures (&& file.decoder.Some? && file.decoder.value.metadata.Success? && file.decoder.value.rawImage.Success?
             && develop(file.decoder.value.rawImage.value).Failure?) ==>
      run == DecodeRun(Failure(DevelopmentFailure(develop(file.decoder.value.rawImage.value).error)), SuccessTrace[..5])
    ensures (&& file.decoder.Some? && file.decoder.value.metadata.Success? && file.decoder.value.rawImage.Success?
             && develop(file.decoder.value.rawImage.value).Success?) ==>
      var metadata := file.decoder.value.metadata.value;
      run == DecodeRun(
        Success(Decoded(metadata, Orient(develop(file.decoder.value.rawImage.value).value, metadata.orientation.value))),
        SuccessTrace)
    ensures run.result.Success? ==>
      && file.decoder.Some? && file.decoder.value.metadata.Success?
      && run.result.value.metadata == file.decoder.value.metadata.value
  {
    match file.decoder
    case None => DecodeRun(Failure(NoDecoder), [ObtainingRaw])
    case Some(decoder) =>
      match decoder.metadata
      case Failure(e) => DecodeRun(Failure(MetadataFailure(e)), [ObtainingRaw, DecodingMetadata])
      case Success(metadata) =>
        match decoder.rawImage
        case Failure(e) => DecodeRun(Failure(ImageExtractionFailure(e)), [ObtainingRaw, DecodingMetadata, DecodingRaw])
        case Success(raw) =>
          match develop(raw)
          case Failure(e) =>
            DecodeRun(Failure(DevelopmentFailure(e)),
              [ObtainingRaw, DecodingMetadata, DecodingRaw, PreparingRawDeveloper, DevelopingRaw])
          case Success(developed) =>
            DecodeRun(Success(Decoded(metadata, Orient(developed, metadata.orientation.value))), SuccessTrace)
  }

  /** Without a decoder the call fails with the fixed message after the
      first event, whatever the developer would have done. */
  lemma {:induction false} NoDecoderFailsFirst(file: RawFile, develop: SensorImage -> Result<Image, string>)
    requires file.decoder.None?
    ensures DecodeRawImage(file, develop) == DecodeRun(Failure(NoDecoder), [ObtainingRaw])
    ensures ErrorMessage(DecodeRawImage(file, develop).result.error) == "Could not get decoder for rawfile"
  {
  }

  /** A metadata failure is reported before the sensor image or the
      developer is looked at: the outcome is the same for every sensor image
      outcome and every developer. */
  lemma {:induction false} MetadataFailureComesFirst(
    file: RawFile, develop: SensorImage -> Result<Image, string>,
    otherRaw: Result<SensorImage, string>, otherDevelop: SensorImage -> Result<Image, string>)
    requires file.decoder.Some? && file.decoder.value.metadata.Failure?
    ensures DecodeRawImage(file, develop).result == Failure(MetadataFailure(file.decoder.value.metadata.error))
    ensures DecodeRawImage(file, develop) ==
      DecodeRawImage(RawFile(Some(file.decoder.value.(rawImage := otherRaw))), otherDevelop)
  {
  }

  /** An image-extraction failure is reported before development: the
      outcome is the same for every developer. */
  lemma {:induction false} ExtractionFailureComesBeforeDevelopment(
    file: RawFile, develop: SensorImage -> Result<Image, string>, otherDevelop: SensorImage -> Result<Image, string>)
    requires file.decoder.Some? && file.decoder.value.metadata.Success? && file.decoder.value.rawImage.Failure?
    ensures DecodeRawImage(file, develop).result == Failure(ImageExtractionFailure(file.decoder.value.rawImage.error))
    ensures DecodeRawImage(file, develop) == DecodeRawImage(file, otherDevelop)
  {
  }

  /** On success the image is the developed image, oriented by the
      metadata's tag. */
  lemma {:induction false} SuccessIsOrientedDevelopment(file: RawFile, develop: SensorImage -> Result<Image, string>)
    requires OrientationReadable(file, develop)
    requires DecodeRawImage(file, develop).result.Success?
    ensures var d := file.decoder.value;
      && d.rawImage.Success? && develop(d.rawImage.value).Success?
      && d.metadata.value.orientation.Some?
      && DecodeRawImage(file, develop).result.value.image
         == Orient(develop(d.rawImage.value).value, d.metadata.value.orientation.value)
  {
  }

  /** Distinct events have distinct names. */
  lemma {:induction false} EventNamesDistinct(a: DecodeEvent, b: DecodeEvent)
    ensures EventName(a) == EventName(b) <==> a == b
  {
  }
}

=== FILE: double_tap.dfy ===
/** The double-tap action: a click fires the callback when it comes less
    than 300 ms after the previous click, and strictly later. */
module DoubleTap {

  const DoubleTapTime: int := 300

  /** The handler's only state: when the last click happened, in ms. */
  datatype TapState = TapState(lastClickTime: int)

  const Initial: TapState := TapState(0)

  datatype Click = Click(fired: bool, next: TapState)

  /** The click `handler`, with the clock reading passed in as `now`. */
  function Handler(state: TapState, now: int): (r: Click)
    ensures r.fired <==> 0 < now - state.lastClickTime < DoubleTapTime
    ensures r.next.lastClickTime == now
  {
    var tapLength := now - state.lastClickTime;
    Click(tapLength < DoubleTapTime && tapLength > 0, TapState(now))
  }

  /** The time of the click before click `i`, the starting state's time for
      the first one. */
  function PreviousTime(start: TapState, times: seq<int>, i: nat): int
    requires i < |times|
  {
    if i == 0 then start.lastClickTime else times[i - 1]
  }

  /** Runs the handler over a sequence of clicks; which of them fired. */
  function Clicks(start: TapState, times: seq<int>): (fired: seq<bool>)
    ensures |fired| == |times|
    ensures forall i :: 0 <= i < |times| ==>
      (fired[i] <==> 0 < times[i] - PreviousTime(start, times, i) < DoubleTapTime)
    decreases |times|
  {
    if |times| == 0 then []
    else
      var c := Handler(start, times[0]);
      var rest := Clicks(c.next, times[1..]);
      assert forall i :: 1 <= i < |times| ==> PreviousTime(c.next, times[1..], i - 1) == PreviousTime(start, times, i);
      [c.fired] + rest
  }

  /** Two clicks at the same instant never fire, whatever came before. */
  lemma {:induction false} SameInstantNeverFires(state: TapState, now: int)
    ensures !Handler(Handler(state, now).next, now).fired
  {
  }

  /** From the initial state, a first click fires only if the clock reads
      between 1 and 299. */
  lemma {:induction false} FirstClickFromInitial(now: int)
    ensures Handler(Initial, now).fired <==> 0 < now < DoubleTapTime
  {
  }
}

=== FILE: edit_settings.dfy ===
/** The `Edits` record driving the older editor: an exposure multiplier and
    a rotation in degrees, each with a getter and a setter. */
module EditSettings {
  import opened Channels

  datatype Edits = Edits(exposure: real, rotation: U16)

  /** `Edits::new`: no exposure change, no rotation. */
  function New(): (r: Edits)
    ensures r.exposure == 0.0 && r.rotation == 0
  {
    Edits(0.0, 0)
  }

  /** `set_exposure`: the exposure getter then returns `value`; the rotation
      is untouched. */
  function SetExposure(e: Edits, value: real): (r: Edits)
    ensures r.exposure == value
    ensures r.rotation == e.rotation
  {
    e.(exposure := value)
  }

  /** `set_rotation`: the rotation getter then returns `value`; the exposure
      is untouched. */
  function SetRotation(e: Edits, value: U16): (r: Edits)
    ensures r.rotation == value
    ensures r.exposure == e.exposure
  {
    e.(rotation := value)
  }

  /** Setting a field twice keeps only the second value. */
  lemma {:induction false} LastSetWins(e: Edits, a: real, b: real, ra: U16, rb: U16)
    ensures SetExposure(SetExposure(e, a), b) == SetExposure(e, b)
    ensures SetRotation(SetRotation(e, ra), rb) == SetRotation(e, rb)
  {
  }
}

=== FILE: editing.dfy ===
/** The older `Editor`: an 8-bit per-pixel exposure loop followed by a
    rotation step, run on a copy of the editor's image. */
module Editing {
  import opened Channels
  import opened Grids
  import EditSettings

  /** The pixel `get_pixel` hands out and `put_pixel` takes back. */
  datatype Rgba8 = Rgba8(r: U8, g: U8, b: U8, a: U8)

  datatype Editor = Editor(dynamicImage: Grid<Rgba8>, edits: EditSettings.Edits)

  /** Exposure on one 8-bit sample: scale by 1 + multiplier, cap at 255,
      then Rust's saturating cast to `u8` (negative results become 0). */
  function ExposeChannel8(v: U8, multiplier: real): (r: U8)
    ensures multiplier == 0.0 ==> r == v
    ensures multiplier >= 0.0 ==> r >= v
    ensures multiplier <= 0.0 ==> r <= v
    ensures multiplier <= -1.0 ==> r == 0
    ensures v as real * (1.0 + multiplier) >= RgbMax8 as real ==> r == RgbMax8
    ensures 0.0 <= v as real * (1.0 + multiplier) <= RgbMax8 as real ==>
      r as real <= v as real * (1.0 + multiplier) < r as real + 1.0
  {
    ScaleFacts(v as real, 1.0 + multiplier);
    var scaled := v as real * (1.0 + multiplier);
    FloatToUnsigned(if scaled < RgbMax8 as real then scaled else RgbMax8 as real, RgbMax8)
  }

  /** Exposure keeps the order of samples: a brighter input never comes
      out darker. */
  lemma {:induction false} ExposeChannel8Monotone(v: U8, w: U8, multiplier: real)
    requires v <= w
    ensures ExposeChannel8(v, multiplier) <= ExposeChannel8(w, multiplier)
  {
    if 1.0 + multiplier > 0.0 {
      var sv, sw := v as real * (1.0 + multiplier), w as real * (1.0 + multiplier);
      ScaleOrder(v as real, w as real, 1.0 + multiplier);
      assert 0.0 <= sv <= sw;
      CappedFloorOrder(sv, sw, ExposeChannel8(v, multiplier), ExposeChannel8(w, multiplier));
    }
  }

  /** Two samples obtained by capping at 255 and truncating keep the order
      of the values they came from. */
  lemma {:induction false} CappedFloorOrder(s: real, t: real, rs: U8, rt: U8)
    requires 0.0 <= s <= t
    requires s <= RgbMax8 as real ==> rs as real <= s
    requires t >= RgbMax8 as real ==> rt == RgbMax8
    requires t <= RgbMax8 as real ==> t < rt as real + 1.0
    ensures rs <= rt
  {
  }

  /** Scaling by a non-negative factor keeps non-negative values in order. */
  lemma {:induction false} ScaleOrder(a: real, b: real, f: real)
    requires 0.0 <= a <= b && 0.0 <= f
    ensures 0.0 <= a * f <= b * f
  {
    assert b * f - a * f == (b - a) * f;
    ScaleFacts(b - a, f);
    ScaleFacts(a, f);
  }

  /** Channels 0..2 are exposed; channel 3 (alpha) is copied. */
  function ExposePixel8(p: Rgba8, multiplier: real): (q: Rgba8)
    ensures q.r == ExposeChannel8(p.r, multiplier)
    ensures q.g == ExposeChannel8(p.g, multiplier)
    ensures q.b == ExposeChannel8(p.b, multiplier)
    ensures q.a == p.a
  {
    Rgba8(ExposeChannel8(p.r, multiplier), ExposeChannel8(p.g, multiplier), ExposeChannel8(p.b, multiplier), p.a)
  }

  /** `Editor::exposure`: visits every (x, y), column by column, replacing
      each pixel by its exposed version exactly once. */
  method Exposure(img: Grid<Rgba8>, multiplier: real) returns (out: Grid<Rgba8>)
    requires Valid(img)
    ensures Valid(out) && out.width == img.width && out.height == img.height
    ensures forall y, x :: 0 <= y < img.height && 0 <= x < img.width ==>
      out.rows[y][x] == ExposePixel8(img.rows[y][x], multiplier)
  {
    var rows := img.rows;
    var x := 0;
    while x < img.width
      invariant 0 <= x <= img.width
      invariant |rows| == img.height
      invariant forall j :: 0 <= j < img.height ==> |rows[j]| == img.width
      invariant forall j, i :: 0 <= j < img.height && 0 <= i < img.width ==>
        rows[j][i] == if i < x then ExposePixel8(img.rows[j][i], multiplier) else img.rows[j][i]
    {
      var y := 0;
      while y < img.height
        invariant 0 <= y <= img.height
        invariant |rows| == img.height
        invariant forall j :: 0 <= j < img.height ==> |rows[j]| == img.width
        invariant forall j, i :: 0 <= j < img.height && 0 <= i < img.width ==>
          rows[j][i] == if i < x || (i == x && j < y) then ExposePixel8(img.rows[j][i], multiplier) else img.rows[j][i]
      {
        var pixel := rows[y][x];
        rows := rows[y := rows[y][x := ExposePixel8(pixel, multiplier)]];
        y := y + 1;
      }
      x := x + 1;
    }
    out := Grid(img.width, img.height, rows);
  }

  /** `Editor::rotate_image` as written: the rotated copy is bound to a
      local and dropped, so the caller's image comes back as it went in. */
  function RotateImage(img: Grid<Rgba8>, rotation: U16): (r: Grid<Rgba8>)
    requires Valid(img)
    ensures r == img
  {
    var discarded := if rotation == 90 then Rotate90(img)
      else if rotation == 180 then Rotate180(img)
      else if rotation == 270 then Rotate270(img)
      else img;
    img
  }

  /** `Editor::rotate_image` as evidently intended: the rotated image
      replaces the caller's. */
  function RotateImageIntended(img: Grid<Rgba8>, rotation: U16): (r: Grid<Rgba8>)
    requires Valid(img)
    ensures Valid(r)
    ensures rotation == 90 || rotation == 270 ==> r.width == img.height && r.height == img.width
    ensures rotation == 90 ==> forall y, x :: 0 <= y < img.height && 0 <= x < img.width ==>
      r.rows[x][img.height - 1 - y] == img.rows[y][x]
    ensures rotation == 180 ==> r.width == img.width && r.height == img.height
    ensures rotation == 180 ==> forall y, x :: 0 <= y < img.height && 0 <= x < img.width ==>
      r.rows[img.height - 1 - y][img.width - 1 - x] == img.rows[y][x]
    ensures rotation == 270 ==> forall y, x :: 0 <= y < img.height && 0 <= x < img.width ==>
      r.rows[img.width - 1 - x][y] == img.rows[y][x]
    ensures rotation != 90 && rotation != 180 && rotation != 270 ==> r == img
  {
    if rotation == 90 then Rotate90(img)
    else if rotation == 180 then Rotate180(img)
    else if rotation == 270 then Rotate270(img)
    else img
  }

  /** A 2x1 image asked to turn a quarter keeps its 2x1 shape under the
      code as written, where the intended rotation makes it 1x2. */
  lemma {:induction false} RotationIsDiscarded()
    ensures var img := Grid(2, 1, [[Rgba8(0, 0, 0, 255), Rgba8(255, 255, 255, 255)]]);
      && Valid(img)
      && RotateImage(img, 90).width == 2
      && RotateImageIntended(img, 90).width == 1
  {
  }

  /** `Editor::process` as written: exposure on a copy of the image, then
      the rotation step, whose result is lost; the editor itself is not
      changed.  The output keeps the source dimensions for every rotation. */
  method Process(e: Editor) returns (img: Grid<Rgba8>)
    requires Valid(e.dynamicImage)
    ensures Valid(img)
    ensures img.width == e.dynamicImage.width && img.height == e.dynamicImage.height
    ensures forall y, x :: 0 <= y < img.height && 0 <= x < img.width ==>
      img.rows[y][x] == ExposePixel8(e.dynamicImage.rows[y][x], e.edits.exposure)
  {
    var edits := e.edits;
    img := Exposure(e.dynamicImage, edits.exposure);
    img := RotateImage(img, edits.rotation);
  }

  /** `Editor::process` with the rotation kept: exposure first, then the
      rotation, so a quarter turn swaps the output's dimensions. */
  method ProcessIntended(e: Editor) returns (img: Grid<Rgba8>)
    requires Valid(e.dynamicImage)
    ensures Valid(img)
    ensures e.edits.rotation == 90 || e.edits.rotation == 270 ==>
      img.width == e.dynamicImage.height && img.height == e.dynamicImage.width
    ensures e.edits.rotation == 180 ==>
      img.width == e.dynamicImage.width && img.height == e.dynamicImage.height
    ensures e.edits.rotation == 90 ==> forall y, x :: 0 <= y < e.dynamicImage.height && 0 <= x < e.dynamicImage.width ==>
      img.rows[x][e.dynamicImage.height - 1 - y] == ExposePixel8(e.dynamicImage.rows[y][x], e.edits.exposure)
    ensures e.edits.rotation == 180 ==> forall y, x :: 0 <= y < e.dynamicImage.height && 0 <= x < e.dynamicImage.width ==>
      img.rows[e.dynamicImage.height - 1 - y][e.dynamicImage.width - 1 - x] == ExposePixel8(e.dynamicImage.rows[y][x], e.edits.exposure)
    ensures e.edits.rotation == 270 ==> forall y, x :: 0 <= y < e.dynamicImage.height && 0 <= x < e.dynamicImage.width ==>
      img.rows[e.dynamicImage.width - 1 - x][y] == ExposePixel8(e.dynamicImage.rows[y][x], e.edits.exposure)
    ensures e.edits.rotation != 90 && e.edits.rotation != 180 && e.edits.rotation != 270 ==>
      img.width == e.dynamicImage.width && img.height == e.dynamicImage.height
    ensures e.edits.rotation != 90 && e.edits.rotation != 180 && e.edits.rotation != 270 ==>
      forall y, x :: 0 <= y < e.dynamicImage.height && 0 <= x < e.dynamicImage.width ==>
        img.rows[y][x] == ExposePixel8(e.dynamicImage.rows[y][x], e.edits.exposure)
  {
    var edits := e.edits;
    var exposed := Exposure(e.dynamicImage, edits.exposure);
    img := RotateImageIntended(exposed, edits.rotation);
  }
}

=== FILE: grids.dfy ===
/** A rectangular pixel grid, stored row-major: `rows[y][x]` is the pixel in
    column `x` of row `y`.  The quarter turns are the clockwise rotations of
    the image library the source relies on, written as explicit index maps. */
module Grids {

  datatype Grid<P> = Grid(width: nat, height: nat, rows: seq<seq<P>>)

  /** Every row exists and has exactly `width` pixels. */
  predicate Valid<P>(g: Grid<P>)
  {
    && |g.rows| == g.height
    && forall y :: 0 <= y < |g.rows| ==> |g.rows[y]| == g.width
  }

  /** Applies `f` to every pixel, keeping the dimensions. */
  function MapPixels<P, Q>(g: Grid<P>, f: P -> Q): (r: Grid<Q>)
    requires Valid(g)
    ensures Valid(r) && r.width == g.width && r.height == g.height
    ensures forall y, x :: 0 <= y < g.height && 0 <= x < g.width ==> r.rows[y][x] == f(g.rows[y][x])
  {
    Grid(g.width, g.height,
      seq(g.height, (y: int) requires 0 <= y < g.height =>
        seq(g.width, (x: int) requires 0 <= x < g.width => f(g.rows[y][x]))))
  }

  /** Quarter turn clockwise: the pixel at (x, y) moves to (height-1-y, x). */
  function Rotate90<P>(g: Grid<P>): (r: Grid<P>)
    requires Valid(g)
    ensures Valid(r) && r.width == g.height && r.height == g.width
    ensures forall y, x :: 0 <= y < g.height && 0 <= x < g.width ==> r.rows[x][g.height - 1 - y] == g.rows[y][x]
  {
    Grid(g.height, g.width,
      seq(g.width, (ny: int) requires 0 <= ny < g.width =>
        seq(g.height, (nx: int) requires 0 <= nx < g.height => g.rows[g.height - 1 - nx][ny])))
  }

  /** Half turn: the pixel at (x, y) moves to (width-1-x, height-1-y). */
  function Rotate180<P>(g: Grid<P>): (r: Grid<P>)
    requires Valid(g)
    ensures Valid(r) && r.width == g.width && r.height == g.height
    ensures forall y, x :: 0 <= y < g.height && 0 <= x < g.width ==> r.rows[g.height - 1 - y][g.width - 1 - x] == g.rows[y][x]
  {
    Grid(g.width, g.height,
      seq(g.height, (ny: int) requires 0 <= ny < g.height =>
        seq(g.width, (nx: int) requires 0 <= nx < g.width => g.rows[g.height - 1 - ny][g.width - 1 - nx])))
  }

  /** Three quarter turns clockwise: the pixel at (x, y) moves to (y, width-1-x). */
  function Rotate270<P>(g: Grid<P>): (r: Grid<P>)
    requires Valid(g)
    ensures Valid(r) && r.width == g.height && r.height == g.width
    ensures forall y, x :: 0 <= y < g.height && 0 <= x < g.width ==> r.rows[g.width - 1 - x][y] == g.rows[y][x]
  {
    Grid(g.height, g.width,
      seq(g.width, (ny: int) requires 0 <= ny < g.width =>
        seq(g.height, (nx: int) requires 0 <= nx < g.height => g.rows[nx][g.width - 1 - ny])))
  }

  /** Two grids of the same shape that agree on every pixel are equal. */
  lemma {:induction false} Extensionality<P>(a: Grid<P>, b: Grid<P>)
    requires Valid(a) && Valid(b) && a.width == b.width && a.height == b.height
    requires forall y, x :: 0 <= y < a.height && 0 <= x < a.width ==> a.rows[y][x] == b.rows[y][x]
    ensures a == b
  {
    forall y | 0 <= y < a.height
      ensures a.rows[y] == b.rows[y]
    {
      assert |a.rows[y]| == |b.rows[y]|;
    }
    assert a.rows == b.rows;
  }

  /** Two quarter turns are a half turn. */
  lemma {:induction false} Rotate90Twice<P>(g: Grid<P>)
    requires Valid(g)
    ensures Rotate90(Rotate90(g)) == Rotate180(g)
  {
    var a := Rotate90(g);
    var r := Rotate90(a);
    var h := Rotate180(g);
    forall y, x | 0 <= y < g.height && 0 <= x < g.width
      ensures r.rows[y][x] == h.rows[y][x]
    {
      var sy, sx := g.height - 1 - y, g.width - 1 - x;
      assert a.rows[sx][g.height - 1 - sy] == g.rows[sy][sx];
      assert r.rows[g.height - 1 - sy][a.height - 1 - sx] == a.rows[sx][g.height - 1 - sy];
    }
    Extensionality(r, h);
  }

  /** A quarter turn after three quarter turns is the identity. */
  lemma {:induction false} Rotate270Then90<P>(g: Grid<P>)
    requires Valid(g)
    ensures Rotate90(Rotate270(g)) == g
  {
    var a := Rotate270(g);
    var r := Rotate90(a);
    forall y, x | 0 <= y < g.height && 0 <= x < g.width
      ensures r.rows[y][x] == g.rows[y][x]
    {
      assert a.rows[g.width - 1 - x][y] == g.rows[y][x];
      assert r.rows[y][a.height - 1 - (g.width - 1 - x)] == a.rows[g.width - 1 - x][y];
    }
    Extensionality(r, g);
  }

  /** Three quarter turns after a quarter turn is the identity. */
  lemma {:induction false} Rotate90Then270<P>(g: Grid<P>)
    requires Valid(g)
    ensures Rotate270(Rotate90(g)) == g
  {
    var a := Rotate90(g);
    var r := Rotate270(a);
    forall y, x | 0 <= y < g.height && 0 <= x < g.width
      ensures r.rows[y][x] == g.rows[y][x]
    {
      assert a.rows[x][g.height - 1 - y] == g.rows[y][x];
      assert r.rows[a.width - 1 - (g.height - 1 - y)][x] == a.rows[x][g.height - 1 - y];
    }
    Extensionality(r, g);
  }

  /** Two half turns restore the grid. */
  lemma {:induction false} Rotate180Twice<P>(g: Grid<P>)
    requires Valid(g)
    ensures Rotate180(Rotate180(g)) == g
  {
    var h := Rotate180(g);
    var hh := Rotate180(h);
    forall y, x | 0 <= y < g.height && 0 <= x < g.width
      ensures hh.rows[y][x] == g.rows[y][x]
    {
      var sy, sx := g.height - 1 - y, g.width - 1 - x;
      assert hh.rows[y][x] == h.rows[sy][sx];
    }
    Extensionality(hh, g);
  }

  /** Four quarter turns restore the grid. */
  lemma {:induction false} Rotate90FourTimes<P>(g: Grid<P>)
    requires Valid(g)
    ensures Rotate90(Rotate90(Rotate90(Rotate90(g)))) == g
  {
    var h := Rotate90(Rotate90(g));
    Rotate90Twice(g);
    Rotate90Twice(h);
    Rotate180Twice(g);
  }

  /** One pixel of the commuting square below. */
  lemma {:induction false} MapRotate90Pixel<P, Q>(g: Grid<P>, f: P -> Q, y: nat, x: nat)
    requires Valid(g) && y < g.width && x < g.height
    ensures Rotate90(MapPixels(g, f)).rows[y][x] == MapPixels(Rotate90(g), f).rows[y][x]
  {
    var m, t := MapPixels(g, f), Rotate90(g);
    assert Valid(m) && m.width == g.width && m.height == g.height;
    assert Valid(t) && t.width == g.height && t.height == g.width;
    var sy, sx := g.height - 1 - x, y;
    assert 0 <= sy < g.height && 0 <= sx < g.width && x == g.height - 1 - sy;
    assert Rotate90(m).rows[y][x] == m.rows[sy][sx];
    assert m.rows[sy][sx] == f(g.rows[sy][sx]);
    assert t.rows[y][x] == g.rows[sy][sx];
    assert MapPixels(t, f).rows[y][x] == f(t.rows[y][x]);
  }

  /** A per-pixel map commutes with a quarter turn. */
  lemma {:induction false} MapCommutesWithRotate90<P, Q>(g: Grid<P>, f: P -> Q)
    requires Valid(g)
    ensures Rotate90(MapPixels(g, f)) == MapPixels(Rotate90(g), f)
  {
    var a := Rotate90(MapPixels(g, f));
    var b := MapPixels(Rotate90(g), f);
    forall y, x | 0 <= y < b.height && 0 <= x < b.width
      ensures a.rows[y][x] == b.rows[y][x]
    {
      MapRotate90Pixel(g, f, y, x);
    }
    Extensionality(a, b);
  }
}

=== FILE: image_operations.dfy ===
/** The front end's per-file operation store: a map from file name to that
    file's operation values, read and written for the file currently open. */
module ImageOperations {

  /** One file's operation values, by operation name. */
  type Operations = map<string, real>

  const ExposureKey: string := "exposure"

  /** What a file starts with: exposure 0. */
  const DefaultOperations: Operations := map[ExposureKey := 0.0]

  type OperationsByFilename = map<string, Operations>

  datatype Retrieved = Retrieved(store: OperationsByFilename, operations: Operations)

  /** `retrieveOrInitialiseOperations`: a known file's operations are
      returned as stored; an unknown file is first given the defaults. */
  function RetrieveOrInitialiseOperations(store: OperationsByFilename, fileName: string): (r: Retrieved)
    ensures r.store.Keys == store.Keys + {fileName}
    ensures fileName in r.store && r.operations == r.store[fileName]
    ensures forall f :: f in store ==> r.store[f] == store[f]
    ensures fileName !in store ==> r.operations == DefaultOperations
  {
    if fileName !in store then Retrieved(store[fileName := DefaultOperations], DefaultOperations)
    else Retrieved(store, store[fileName])
  }

  /** Retrieving twice gives what retrieving once gave, and leaves the
      store as the first call left it. */
  lemma {:induction false} RetrieveIsIdempotent(store: OperationsByFilename, fileName: string)
    ensures var once := RetrieveOrInitialiseOperations(store, fileName);
      RetrieveOrInitialiseOperations(once.store, fileName) == once
  {
  }

  /** What reading `operations[fileName][key]` yields: the value, JavaScript
      `undefined` for a missing key, or a thrown TypeError when the file has
      no entry at all. */
  datatype Lookup = Found(value: real) | Undefined | NoEntryForFile

  /** `getOperationValue` for the current file. */
  function GetOperationValue(store: OperationsByFilename, currentFile: string, key: string): (r: Lookup)
    ensures r.NoEntryForFile? <==> currentFile !in store
    ensures r.Found? <==> currentFile in store && key in store[currentFile]
    ensures r.Found? ==> r.value == store[currentFile][key]
  {
    if currentFile !in store then NoEntryForFile
    else if key !in store[currentFile] then Undefined
    else Found(store[currentFile][key])
  }

  /** `setOperationValue` for the current file: a fresh object spreading the
      file's old values (none if it had no entry) with `key` overridden. */
  function SetOperationValue(store: OperationsByFilename, currentFile: string, key: string, value: real)
    : (r: OperationsByFilename)
    ensures r.Keys == store.Keys + {currentFile}
    ensures forall f :: f in store && f != currentFile ==> r[f] == store[f]
    ensures r[currentFile].Keys == (if currentFile in store then store[currentFile].Keys else {}) + {key}
    ensures r[currentFile][key] == value
    ensures forall k :: k in r[currentFile] && k != key ==> r[currentFile][k] == store[currentFile][k]
  {
    var previous := if currentFile in store then store[currentFile] else map[];
    store[currentFile := previous[key := value]]
  }

  /** Reading a value back after setting it, for the same current file,
      gives the value set. */
  lemma {:induction false} GetAfterSet(store: OperationsByFilename, currentFile: string, key: string, value: real)
    ensures GetOperationValue(SetOperationValue(store, currentFile, key, value), currentFile, key) == Found(value)
  {
  }

  /** Setting one file's value leaves every other read unchanged. */
  lemma {:induction false} SetLeavesOtherReads(
    store: OperationsByFilename, currentFile: string, key: string, value: real, otherFile: string, otherKey: string)
    requires otherFile != currentFile || otherKey != key
    requires otherFile in store
    ensures GetOperationValue(SetOperationValue(store, currentFile, key, value), otherFile, otherKey)
         == GetOperationValue(store, otherFile, otherKey)
  {
  }
}

=== FILE: image_processing.dfy ===
/** The non-destructive edit pipeline of `ImageProcessor`: an immutable
    decoded original, an append-only log of edit operations, and a render
    that keeps the last operation of each kind and applies the survivors to
    a fresh copy of the original in the fixed order Exposure, Contrast,
    Rotation. */
module ImageProcessing {
  import opened Wrappers
  import opened Channels
  import opened Grids
  import opened Images
  import opened OperationTypes
  import Decoding

  /** Midpoint of the 16-bit range, the pivot of the contrast curve. */
  const Mean: real := RgbMax16 as real / 2.0

  // ---------------------------------------------------------------------
  // Per-channel transforms
  // ---------------------------------------------------------------------

  /** Exposure on one 16-bit sample: scale by 1 + 2*value, clamp to the
      16-bit range, truncate. */
  function ExposeChannel(v: U16, value: real): (r: U16)
    ensures value == 0.0 ==> r == v
    ensures value == -0.5 ==> r == 0
    ensures value >= 0.0 ==> r >= v
    ensures value <= 0.0 ==> r <= v
    ensures v as real * (1.0 + 2.0 * value) >= RgbMax16 as real ==> r == RgbMax16
    ensures v as real * (1.0 + 2.0 * value) < 1.0 ==> r == 0
    ensures 0.0 <= v as real * (1.0 + 2.0 * value) <= RgbMax16 as real ==>
      r as real <= v as real * (1.0 + 2.0 * value) < r as real + 1.0
  {
    ExposureScale(v, value);
    // the source doubles the caller's value before use
    FloatToUnsigned(Clamp(v as real * (1.0 + 2.0 * value), 0.0, RgbMax16 as real), RgbMax16)
  }

  /** Where the unclamped exposure product lies: at or above the sample
      for value >= 0, between 0 and the sample for -0.5 <= value <= 0, at
      or below 0 from -0.5 down. */
  lemma {:induction false} ExposureScale(v: U16, value: real)
    ensures value >= 0.0 ==> v as real <= v as real * (1.0 + 2.0 * value)
    ensures -0.5 <= value <= 0.0 ==> 0.0 <= v as real * (1.0 + 2.0 * value) <= v as real
    ensures value <= -0.5 ==> v as real * (1.0 + 2.0 * value) <= 0.0
  {
    ScaleFacts(v as real, 1.0 + 2.0 * value);
  }

  /** Contrast on one 16-bit sample: stretch the distance from mid-grey by
      1 + contrast, clamp, truncate. */
  function ContrastChannel(v: U16, contrast: real): (r: U16)
    ensures contrast == 0.0 ==> r == v
    ensures contrast == -1.0 ==> r == 32767
    ensures contrast >= 0.0 && v >= 32768 ==> r >= v
    ensures contrast >= 0.0 && v <= 32767 ==> r <= v
    ensures -1.0 <= contrast <= 0.0 && v >= 32768 ==> 32767 <= r <= v
    ensures -1.0 <= contrast <= 0.0 && v <= 32767 ==> v <= r <= 32767
    ensures ContrastCurve(v, contrast) >= RgbMax16 as real ==> r == RgbMax16
    ensures ContrastCurve(v, contrast) < 1.0 ==> r == 0
    ensures 0.0 <= ContrastCurve(v, contrast) <= RgbMax16 as real ==>
      r as real <= ContrastCurve(v, contrast) < r as real + 1.0
  {
    ContrastStretches(v, contrast);
    ContrastCompresses(v, contrast);
    FloatToUnsigned(Clamp(ContrastCurve(v, contrast), 0.0, RgbMax16 as real), RgbMax16)
  }

  /** The contrast curve before clamping: distance from the pivot scaled
      by 1 + contrast. */
  function ContrastCurve(v: U16, contrast: real): (t: real)
    ensures contrast == 0.0 ==> t == v as real
    ensures contrast == -1.0 ==> t == Mean
  {
    (v as real - Mean) * (1.0 + contrast) + Mean
  }

  /** Positive contrast moves the unclamped curve away from the pivot:
      samples above it rise, samples below it fall. */
  lemma {:induction false} ContrastStretches(v: U16, contrast: real)
    ensures contrast >= 0.0 && v >= 32768 ==> v as real <= ContrastCurve(v, contrast)
    ensures contrast >= 0.0 && v <= 32767 ==> ContrastCurve(v, contrast) <= v as real
  {
    var d, f := v as real - Mean, 1.0 + contrast;
    assert ContrastCurve(v, contrast) == d * f + Mean;
    ScaleFacts(d, f);
  }

  /** Contrast in [-1, 0] moves the unclamped curve toward the pivot
      without crossing it. */
  lemma {:induction false} ContrastCompresses(v: U16, contrast: real)
    ensures -1.0 <= contrast <= 0.0 && v >= 32768 ==> Mean <= ContrastCurve(v, contrast) <= v as real
    ensures -1.0 <= contrast <= 0.0 && v <= 32767 ==> v as real <= ContrastCurve(v, contrast) <= Mean
  {
    var d, f := v as real - Mean, 1.0 + contrast;
    assert ContrastCurve(v, contrast) == d * f + Mean;
    ScaleFacts(d, f);
  }

  /** The curve is symmetric about the pivot: mirroring a sample in the
      16-bit range mirrors its image. */
  lemma {:induction false} ContrastCurveSymmetric(v: U16, contrast: real)
    ensures ContrastCurve(RgbMax16 - v, contrast) == RgbMax16 as real - ContrastCurve(v, contrast)
  {
    var d, f := v as real - Mean, 1.0 + contrast;
    assert Mean == 32767.5;
    assert (RgbMax16 - v) as real - Mean == -d;
    assert ContrastCurve(RgbMax16 - v, contrast) == (-d) * f + Mean;
    assert ContrastCurve(v, contrast) == d * f + Mean;
    assert (-d) * f == -(d * f);
  }

  /** Mid-grey 32767 is left alone exactly when -2 < contrast <= 0: the
      curve pivots on 32767.5, which no sample takes. */
  lemma {:induction false} ContrastMidGreyFixedIff(contrast: real)
    ensures ContrastChannel(32767, contrast) == 32767 <==> -2.0 < contrast <= 0.0
  {
    var t := ContrastCurve(32767, contrast);
    assert t == 32767.0 - 0.5 * contrast;
    if contrast <= -2.0 {
      assert t >= 32768.0;
    } else if contrast > 0.0 {
      assert t < 32767.0;
    }
  }

  function ExposePixel(p: Rgb16, value: real): Rgb16
  {
    Rgb16(ExposeChannel(p.r, value), ExposeChannel(p.g, value), ExposeChannel(p.b, value))
  }

  function ContrastPixel(p: Rgb16, contrast: real): Rgb16
  {
    Rgb16(ContrastChannel(p.r, contrast), ContrastChannel(p.g, contrast), ContrastChannel(p.b, contrast))
  }

  // ---------------------------------------------------------------------
  // Whole-image transforms
  // ---------------------------------------------------------------------

  function ExposeImage(img: Image, value: real): (r: Image)
    ensures r.width == img.width && r.height == img.height
    ensures forall y, x :: 0 <= y < img.height && 0 <= x < img.width ==> r.rows[y][x] == ExposePixel(img.rows[y][x], value)
  {
    MapPixels(img, p => ExposePixel(p, value))
  }

  function ContrastImage(img: Image, contrast: real): (r: Image)
    ensures r.width == img.width && r.height == img.height
    ensures forall y, x :: 0 <= y < img.height && 0 <= x < img.width ==> r.rows[y][x] == ContrastPixel(img.rows[y][x], contrast)
  {
    MapPixels(img, p => ContrastPixel(p, contrast))
  }

  /** Rotation by an angle in degrees: 90, 180 and 270 turn the image
      clockwise, any other angle leaves it as it is. */
  function RotateImage(img: Image, angle: real): (r: Image)
    ensures angle == 90.0 || angle == 270.0 ==> r.width == img.height && r.height == img.width
    ensures angle == 180.0 ==> r.width == img.width && r.height == img.height
    ensures angle == 90.0 ==> forall y, x :: 0 <= y < img.height && 0 <= x < img.width ==>
      r.rows[x][img.height - 1 - y] == img.rows[y][x]
    ensures angle == 180.0 ==> forall y, x :: 0 <= y < img.height && 0 <= x < img.width ==>
      r.rows[img.height - 1 - y][img.width - 1 - x] == img.rows[y][x]
    ensures angle == 270.0 ==> forall y, x :: 0 <= y < img.height && 0 <= x < img.width ==>
      r.rows[img.width - 1 - x][y] == img.rows[y][x]
    ensures angle != 90.0 && angle != 180.0 && angle != 270.0 ==> r == img
  {
    if angle == 90.0 then Rotate90(img)
    else if angle == 180.0 then Rotate180(img)
    else if angle == 270.0 then Rotate270(img)
    else img
  }

  /** Exposure 0 renders the image unchanged. */
  lemma {:induction false} ExposureZeroIsIdentity(img: Image)
    ensures ExposeImage(img, 0.0) == img
  {
    var r := ExposeImage(img, 0.0);
    forall y, x | 0 <= y < img.height && 0 <= x < img.width
      ensures r.rows[y][x] == img.rows[y][x]
    {
      var p := img.rows[y][x];
      assert ExposePixel(p, 0.0) == Rgb16(p.r, p.g, p.b);
    }
    Extensionality(r, img);
  }

  /** Exposure -0.5 turns every colour sample black. */
  lemma {:induction false} ExposureMinusHalfIsBlack(img: Image)
    ensures var r := ExposeImage(img, -0.5);
      forall y, x :: 0 <= y < img.height && 0 <= x < img.width ==> r.rows[y][x] == Rgb16(0, 0, 0)
  {
  }

  /** Contrast 0 renders the image unchanged. */
  lemma {:induction false} ContrastZeroIsIdentity(img: Image)
    ensures ContrastImage(img, 0.0) == img
  {
    var r := ContrastImage(img, 0.0);
    forall y, x | 0 <= y < img.height && 0 <= x < img.width
      ensures r.rows[y][x] == img.rows[y][x]
    {
      var p := img.rows[y][x];
      assert ContrastPixel(p, 0.0) == Rgb16(p.r, p.g, p.b);
    }
    Extensionality(r, img);
  }

  // ---------------------------------------------------------------------
  // Operations and the log
  // ---------------------------------------------------------------------

  /** One recorded edit: the kind and the parameter its closure captured. */
  datatype Op =
    | ExposureEdit(value: real)
    | ContrastEdit(contrast: real)
    | RotationEdit(angle: real)

  function KindOf(op: Op): OperationType
  {
    match op
    case ExposureEdit(_) => Exposure
    case ContrastEdit(_) => Contrast
    case RotationEdit(_) => Rotation
  }

  /** A rotation edit by 90 or 270 degrees, the angles that swap width and
      height. */
  predicate QuarterTurn(op: Op)
  {
    op.RotationEdit? && (op.angle == 90.0 || op.angle == 270.0)
  }

  /** Runs the operation's closure on the working image: only a quarter
      turn changes the shape, and the neutral exposure and contrast edits
      change nothing. */
  function Apply(op: Op, img: Image): (r: Image)
    ensures QuarterTurn(op) ==> r.width == img.height && r.height == img.width
    ensures !QuarterTurn(op) ==> r.width == img.width && r.height == img.height
    ensures op == ExposureEdit(0.0) || op == ContrastEdit(0.0) ==> r == img
  {
    ExposureZeroIsIdentity(img);
    ContrastZeroIsIdentity(img);
    match op
    case ExposureEdit(value) => ExposeImage(img, value)
    case ContrastEdit(contrast) => ContrastImage(img, contrast)
    case RotationEdit(angle) => RotateImage(img, angle)
  }

  /** The dedup loop: inserting the log oldest first into a map keyed by
      kind, so a later operation overwrites an earlier one of its kind.
      Every logged kind is kept, with an operation of that kind taken from
      the log. */
  function Resolve(log: seq<Op>): (r: map<OperationType, Op>)
    ensures forall i :: 0 <= i < |log| ==> KindOf(log[i]) in r
    ensures forall k :: k in r ==> KindOf(r[k]) == k && r[k] in log
  {
    if |log| == 0 then map[]
    else
      var prefix := log[..|log| - 1];
      var last := log[|log| - 1];
      var m := Resolve(prefix);
      assert forall i :: 0 <= i < |prefix| ==> prefix[i] == log[i];
      assert forall op :: op in prefix ==> op in log;
      m[KindOf(last) := last]
  }

  /** A kind is resolved exactly when the log holds an operation of it. */
  lemma {:induction false} ResolvedKinds(log: seq<Op>, k: OperationType)
    ensures k in Resolve(log) <==> exists i :: 0 <= i < |log| && KindOf(log[i]) == k
  {
    if k in Resolve(log) {
      var op := Resolve(log)[k];
      var i :| 0 <= i < |log| && log[i] == op;
    }
  }

  /** Last write wins: the operation kept for a kind is the last one of
      that kind in the log. */
  lemma {:induction false} ResolveKeepsLast(log: seq<Op>, i: nat)
    requires i < |log|
    requires forall j :: i < j < |log| ==> KindOf(log[j]) != KindOf(log[i])
    ensures Resolve(log)[KindOf(log[i])] == log[i]
  {
    if i < |log| - 1 {
      var prefix := log[..|log| - 1];
      assert prefix[i] == log[i];
      forall j | i < j < |prefix|
        ensures KindOf(prefix[j]) != KindOf(prefix[i])
      {
        assert prefix[j] == log[j];
      }
      ResolveKeepsLast(prefix, i);
    }
  }

  /** An independent statement of "last write wins": scan the log newest
      first and keep an operation only if its kind is not yet in the map.
      `acc` holds what the scan has already kept. */
  function ResolveNewestFirst(log: seq<Op>, acc: map<OperationType, Op>): map<OperationType, Op>
  {
    if |log| == 0 then acc
    else
      var last := log[|log| - 1];
      var acc' := if KindOf(last) in acc then acc else acc[KindOf(last) := last];
      ResolveNewestFirst(log[..|log| - 1], acc')
  }

  /** Both dedup orders keep the same operation for every kind. */
  lemma {:induction false} NewestFirstAgreesWithResolve(log: seq<Op>, acc: map<OperationType, Op>)
    ensures ResolveNewestFirst(log, acc) == Resolve(log) + acc
  {
    if |log| > 0 {
      var last := log[|log| - 1];
      var acc' := if KindOf(last) in acc then acc else acc[KindOf(last) := last];
      NewestFirstAgreesWithResolve(log[..|log| - 1], acc');
      var m := Resolve(log[..|log| - 1]);
      assert Resolve(log) == m[KindOf(last) := last];
      assert m + acc' == m[KindOf(last) := last] + acc;
    }
  }

  /** Dedup of a concatenation: the later part's operations win. */
  lemma {:induction false} ResolveAppend(a: seq<Op>, b: seq<Op>)
    ensures Resolve(a + b) == Resolve(a) + Resolve(b)
  {
    if |b| > 0 {
      var b' := b[..|b| - 1];
      var last := b[|b| - 1];
      ResolveAppend(a, b');
      assert (a + b)[..|a + b| - 1] == a + b';
      assert (a + b)[|a + b| - 1] == last;
      assert Resolve(a + b) == Resolve(a + b')[KindOf(last) := last];
      assert Resolve(b) == Resolve(b')[KindOf(last) := last];
      UpdateAfterUnion(Resolve(a), Resolve(b'), KindOf(last), last);
    } else {
      assert a + b == a;
    }
  }

  /** Updating a union is updating its right operand. */
  lemma {:induction false} UpdateAfterUnion<K, V>(m: map<K, V>, n: map<K, V>, k: K, v: V)
    ensures (m + n)[k := v] == m + n[k := v]
  {
    var l, r := (m + n)[k := v], m + n[k := v];
    assert l.Keys == r.Keys;
    forall key | key in l
      ensures l[key] == r[key]
    {
    }
  }

  /** The dedup of a single operation. */
  lemma {:induction false} ResolveSingle(op: Op)
    ensures Resolve([op]) == map[KindOf(op) := op]
  {
    assert [op][..0] == [];
  }

  /** An operation followed later by another of its kind has no effect. */
  lemma {:induction false} SupersededOperationIsInert(pre: seq<Op>, op: Op, post: seq<Op>)
    requires exists j :: 0 <= j < |post| && KindOf(post[j]) == KindOf(op)
    ensures Resolve(pre + [op] + post) == Resolve(pre + post)
  {
    var j :| 0 <= j < |post| && KindOf(post[j]) == KindOf(op);
    var a, b := Resolve(pre), Resolve(post);
    assert KindOf(op) in b;
    ResolveAppend(pre + [op], post);
    ResolveAppend(pre, [op]);
    ResolveAppend(pre, post);
    ResolveSingle(op);
    OverriddenEntryIsInert(a, KindOf(op), op, b);
  }

  lemma {:induction false} OverriddenEntryIsInert<K, V>(a: map<K, V>, k: K, v: V, b: map<K, V>)
    requires k in b
    ensures (a + map[k := v]) + b == a + b
  {
    var l, r := (a + map[k := v]) + b, a + b;
    assert l.Keys == r.Keys;
    forall key | key in l
      ensures l[key] == r[key]
    {
    }
  }

  /** Issuing two operations of different kinds in either order resolves
      the same. */
  lemma {:induction false} DistinctKindsCommute(pre: seq<Op>, x: Op, y: Op, post: seq<Op>)
    requires KindOf(x) != KindOf(y)
    ensures Resolve(pre + [x, y] + post) == Resolve(pre + [y, x] + post)
  {
    ResolveAppend(pre + [x, y], post);
    ResolveAppend(pre + [y, x], post);
    ResolveAppend(pre, [x, y]);
    ResolveAppend(pre, [y, x]);
    ResolveAppend([x], [y]);
    ResolveAppend([y], [x]);
    assert [x] + [y] == [x, y] && [y] + [x] == [y, x];
    ResolveSingle(x);
    ResolveSingle(y);
    assert map[KindOf(x) := x] + map[KindOf(y) := y] == map[KindOf(y) := y] + map[KindOf(x) := x];
  }

  // ---------------------------------------------------------------------
  // Rendering
  // ---------------------------------------------------------------------

  /** Applies the surviving operations in the fixed order Exposure,
      Contrast, Rotation; absent kinds are skipped. */
  function ApplyResolved(img: Image, ops: map<OperationType, Op>): (r: Image)
    requires forall k :: k in ops ==> KindOf(ops[k]) == k
    ensures ops == map[] ==> r == img
    ensures Rotation in ops && QuarterTurn(ops[Rotation]) ==> r.width == img.height && r.height == img.width
    ensures !(Rotation in ops && QuarterTurn(ops[Rotation])) ==> r.width == img.width && r.height == img.height
  {
    assert Exposure in ops ==> KindOf(ops[Exposure]) == Exposure;
    assert Contrast in ops ==> KindOf(ops[Contrast]) == Contrast;
    var exposed := if Exposure in ops then Apply(ops[Exposure], img) else img;
    var contrasted := if Contrast in ops then Apply(ops[Contrast], exposed) else exposed;
    if Rotation in ops then Apply(ops[Rotation], contrasted) else contrasted
  }

  /** The working image a render produces from the original and the log. */
  function Render(original: Image, log: seq<Op>): (r: Image)
    ensures log == [] ==> r == original
    ensures Rotation in Resolve(log) && QuarterTurn(Resolve(log)[Rotation]) ==>
      r.width == original.height && r.height == original.width
    ensures !(Rotation in Resolve(log) && QuarterTurn(Resolve(log)[Rotation])) ==>
      r.width == original.width && r.height == original.height
  {
    ApplyResolved(original, Resolve(log))
  }

  /** The operation of kind `k` a render uses, found independently of the
      dedup map: scan the log newest first and take the first one of that
      kind. */
  function LastOfKind(log: seq<Op>, k: OperationType): Option<Op>
  {
    if |log| == 0 then None
    else if KindOf(log[|log| - 1]) == k then Some(log[|log| - 1])
    else LastOfKind(log[..|log| - 1], k)
  }

  /** One pipeline stage: the transform named by the operation, or no
      change when no operation of the stage's kind was logged. */
  function Stage(op: Option<Op>, img: Image): Image
  {
    match op
    case None => img
    case Some(ExposureEdit(value)) => ExposeImage(img, value)
    case Some(ContrastEdit(contrast)) => ContrastImage(img, contrast)
    case Some(RotationEdit(angle)) => RotateImage(img, angle)
  }

  /** The dedup map holds, for each kind, exactly the newest operation of
      that kind. */
  lemma {:induction false} LastOfKindResolve(log: seq<Op>, k: OperationType)
    ensures LastOfKind(log, k) == if k in Resolve(log) then Some(Resolve(log)[k]) else None
  {
    if |log| > 0 {
      LastOfKindResolve(log[..|log| - 1], k);
    }
  }

  /** Whatever order the operations were issued in, a render is the newest
      exposure, then the newest contrast, then the newest rotation, each
      skipped when its kind was never logged. */
  lemma {:induction false} RenderFixedOrder(original: Image, log: seq<Op>)
    ensures Render(original, log)
         == Stage(LastOfKind(log, Rotation), Stage(LastOfKind(log, Contrast), Stage(LastOfKind(log, Exposure), original)))
  {
    LastOfKindResolve(log, Exposure);
    LastOfKindResolve(log, Contrast);
    LastOfKindResolve(log, Rotation);
  }

  /** Contrast issued before exposure is still applied after it. */
  lemma {:induction false} ExposureAppliedBeforeContrast(original: Image, value: real, contrast: real)
    ensures Render(original, [ContrastEdit(contrast), ExposureEdit(value)])
         == ContrastImage(ExposeImage(original, value), contrast)
  {
    var log := [ContrastEdit(contrast), ExposureEdit(value)];
    assert log[..1] == [ContrastEdit(contrast)] && log[..1][..0] == [];
    assert Resolve(log) == map[Contrast := ContrastEdit(contrast), Exposure := ExposureEdit(value)];
  }

  /** Rotation issued first is still applied last. */
  lemma {:induction false} RotationAppliedLast(original: Image, angle: real, value: real)
    ensures Render(original, [RotationEdit(angle), ExposureEdit(value)])
         == RotateImage(ExposeImage(original, value), angle)
  {
    var log := [RotationEdit(angle), ExposureEdit(value)];
    assert log[..1] == [RotationEdit(angle)] && log[..1][..0] == [];
    assert Resolve(log) == map[Rotation := RotationEdit(angle), Exposure := ExposureEdit(value)];
  }

  /** A render with an empty log is the original itself. */
  lemma {:induction false} EmptyLogRendersOriginal(original: Image)
    ensures Render(original, []) == original
  {
  }

  // ---------------------------------------------------------------------
  // The processor
  // ---------------------------------------------------------------------

  datatype ImageProcessor = ImageProcessor(
    metadata: Decoding.Metadata,
    originalImage: Image,
    originalWidth: nat,
    originalHeight: nat,
    editedWidth: nat,
    editedHeight: nat,
    operations: seq<Op>)

  /** The recorded original dimensions are those of the original image. */
  predicate Consistent(p: ImageProcessor)
  {
    p.originalWidth == p.originalImage.width && p.originalHeight == p.originalImage.height
  }

  /** `ImageProcessor::new`: decode, then start with an empty log and the
      edited dimensions equal to the original ones.  A decode error is
      thrown to the host; here it is the `Failure` outcome. */
  function New(file: Decoding.RawFile, develop: Decoding.SensorImage -> Result<Image, string>)
    : (r: Result<ImageProcessor, Decoding.DecodeError>)
    requires Decoding.OrientationReadable(file, develop)
    ensures r.Success? <==> Decoding.DecodeRawImage(file, develop).result.Success?
    ensures r.Failure? ==> r.error == Decoding.DecodeRawImage(file, develop).result.error
    ensures r.Success? ==>
      && var d := Decoding.DecodeRawImage(file, develop).result.value;
      && Consistent(r.value)
      && r.value.operations == []
      && r.value.originalImage == d.image
      && r.value.metadata == d.metadata
      && r.value.editedWidth == d.image.width && r.value.editedHeight == d.image.height
  {
    match Decoding.DecodeRawImage(file, develop).result
    case Failure(e) => Failure(e)
    case Success(d) =>
      Success(ImageProcessor(d.metadata, d.image, d.image.width, d.image.height, d.image.width, d.image.height, []))
  }

  /** `set_exposure`: appends one exposure operation. */
  function SetExposure(p: ImageProcessor, value: real): (r: ImageProcessor)
    ensures |r.operations| == |p.operations| + 1
    ensures r.operations[..|p.operations|] == p.operations
    ensures r.operations[|p.operations|] == ExposureEdit(value)
    ensures r == p.(operations := r.operations)
  {
    p.(operations := p.operations + [ExposureEdit(value)])
  }

  /** `set_contrast`: appends one contrast operation. */
  function SetContrast(p: ImageProcessor, contrast: real): (r: ImageProcessor)
    ensures |r.operations| == |p.operations| + 1
    ensures r.operations[..|p.operations|] == p.operations
    ensures r.operations[|p.operations|] == ContrastEdit(contrast)
    ensures r == p.(operations := r.operations)
  {
    p.(operations := p.operations + [ContrastEdit(contrast)])
  }

  /** `set_rotation`: appends one rotation operation. */
  function SetRotation(p: ImageProcessor, angle: real): (r: ImageProcessor)
    ensures |r.operations| == |p.operations| + 1
    ensures r.operations[..|p.operations|] == p.operations
    ensures r.operations[|p.operations|] == RotationEdit(angle)
    ensures r == p.(operations := r.operations)
  {
    p.(operations := p.operations + [RotationEdit(angle)])
  }

  /** `apply_operations` (and `process`, which only calls it): render from
      the original, record the rendered dimensions, return the RGBA8
      buffer.  Nothing but the edited dimensions changes. */
  function ApplyOperations(p: ImageProcessor): (r: (ImageProcessor, seq<U8>))
    ensures r.0 == p.(editedWidth := r.0.editedWidth, editedHeight := r.0.editedHeight)
    ensures r.0.editedWidth == Render(p.originalImage, p.operations).width
    ensures r.0.editedHeight == Render(p.originalImage, p.operations).height
    ensures |r.1| == 4 * r.0.editedWidth * r.0.editedHeight
    ensures r.1 == Serialize(Render(p.originalImage, p.operations))
  {
    var edited := Render(p.originalImage, p.operations);
    SerializeLayout(edited);
    (p.(editedWidth := edited.width, editedHeight := edited.height), Serialize(edited))
  }

  /** Rendering twice with no edit in between yields the same state and
      the same bytes. */
  lemma {:induction false} ApplyOperationsIdempotent(p: ImageProcessor)
    ensures ApplyOperations(ApplyOperations(p).0) == ApplyOperations(p)
  {
  }

  /** With no edits, the render is the original image's own bytes. */
  lemma {:induction false} NoEditsRenderOriginal(p: ImageProcessor)
    requires Consistent(p) && p.operations == []
    ensures ApplyOperations(p).1 == Serialize(p.originalImage)
    ensures ApplyOperations(p).0.editedWidth == p.originalWidth
    ensures ApplyOperations(p).0.editedHeight == p.originalHeight
  {
  }

  /** Only the last exposure counts: two exposures render the same bytes
      and dimensions as the second alone. */
  lemma {:induction false} LastExposureWins(p: ImageProcessor, first: real, second: real)
    ensures var twice, once := ApplyOperations(SetExposure(SetExposure(p, first), second)), ApplyOperations(SetExposure(p, second));
      && twice.1 == once.1
      && twice.0.editedWidth == once.0.editedWidth
      && twice.0.editedHeight == once.0.editedHeight
  {
    var log := p.operations;
    var p1, p2 := SetExposure(SetExposure(p, first), second), SetExposure(p, second);
    assert p1.operations == log + [ExposureEdit(first)] + [ExposureEdit(second)];
    assert p2.operations == log + [ExposureEdit(second)];
    assert [ExposureEdit(second)][0] == ExposureEdit(second);
    SupersededOperationIsInert(log, ExposureEdit(first), [ExposureEdit(second)]);
    assert Render(p1.originalImage, p1.operations) == Render(p2.originalImage, p2.operations);
  }

  /** The edited dimensions follow the last rotation: 90 and 270 swap the
      original dimensions, 180 keeps them, any other angle or no rotation
      at all keeps them too.  The original dimensions never change. */
  lemma {:induction false} RotationDimensions(p: ImageProcessor)
    requires Consistent(p)
    ensures var q := ApplyOperations(p).0;
      var ops := Resolve(p.operations);
      && q.originalWidth == p.originalWidth && q.originalHeight == p.originalHeight
      && (Rotation in ops && (ops[Rotation].angle == 90.0 || ops[Rotation].angle == 270.0) ==>
            q.editedWidth == p.originalHeight && q.editedHeight == p.originalWidth)
      && (!(Rotation in ops && (ops[Rotation].angle == 90.0 || ops[Rotation].angle == 270.0)) ==>
            q.editedWidth == p.originalWidth && q.editedHeight == p.originalHeight)
  {
  }

  /** Rotating by 90 then by 270 swaps the dimensions once: only the 270
      rotation is applied. */
  lemma {:induction false} LastRotationWins(p: ImageProcessor)
    requires Consistent(p)
    ensures var q := ApplyOperations(SetRotation(SetRotation(p, 90.0), 270.0)).0;
      q.editedWidth == p.originalHeight && q.editedHeight == p.originalWidth
  {
    var p2 := SetRotation(SetRotation(p, 90.0), 270.0);
    var ops := Resolve(p2.operations);
    assert p2.operations[|p2.operations| - 1] == RotationEdit(270.0);
    assert ops == Resolve(p2.operations[..|p2.operations| - 1])[Rotation := RotationEdit(270.0)];
    RotationDimensions(p2);
  }
}

=== FILE: images.dfy ===
/** Decoded images and the interchange buffer produced from them by
    `into_rgba8().to_vec()`: row-major, four 8-bit samples per pixel, opaque
    alpha. */
module Images {
  import opened Channels
  import opened Grids

  /** A decoded image in the pipeline's 16-bit RGB working format. */
  type Image = g: Grid<Rgb16> | Valid(g) witness Grid(0, 0, [])

  /** The four bytes one 16-bit RGB pixel becomes. */
  function PixelBytes(p: Rgb16): (bs: seq<U8>)
    ensures |bs| == 4
  {
    [To8(p.r), To8(p.g), To8(p.b), RgbMax8]
  }

  function RowBytes(row: seq<Rgb16>): seq<U8>
  {
    if |row| == 0 then [] else PixelBytes(row[0]) + RowBytes(row[1..])
  }

  function RowsBytes(rows: seq<seq<Rgb16>>): seq<U8>
  {
    if |rows| == 0 then [] else RowBytes(rows[0]) + RowsBytes(rows[1..])
  }

  /** The whole image as one flat byte buffer, four bytes per pixel. */
  function Serialize(g: Grid<Rgb16>): (bs: seq<U8>)
    requires Valid(g)
    ensures |bs| == 4 * g.width * g.height
  {
    RowsBytesLength(g.rows, g.width);
    RowsBytes(g.rows)
  }

  lemma {:induction false} RowBytesLayout(row: seq<Rgb16>)
    ensures |RowBytes(row)| == 4 * |row|
    ensures forall x, c :: 0 <= x < |row| && 0 <= c < 4 ==> RowBytes(row)[4 * x + c] == PixelBytes(row[x])[c]
  {
    if |row| > 0 {
      RowBytesLayout(row[1..]);
      var tail := RowBytes(row[1..]);
      forall x, c | 0 <= x < |row| && 0 <= c < 4
        ensures RowBytes(row)[4 * x + c] == PixelBytes(row[x])[c]
      {
        if x > 0 {
          assert RowBytes(row)[4 * x + c] == tail[4 * (x - 1) + c];
          assert row[1..][x - 1] == row[x];
        }
      }
    }
  }

  lemma {:induction false} RowsBytesLength(rows: seq<seq<Rgb16>>, w: nat)
    requires forall y :: 0 <= y < |rows| ==> |rows[y]| == w
    ensures |RowsBytes(rows)| == 4 * w * |rows|
  {
    if |rows| > 0 {
      RowBytesLayout(rows[0]);
      assert |RowBytes(rows[0])| == 4 * w;
      RowsBytesLength(rows[1..], w);
      var n := |rows| - 1;
      assert |RowsBytes(rows[1..])| == 4 * w * n;
      assert |RowsBytes(rows)| == |RowBytes(rows[0])| + |RowsBytes(rows[1..])|;
      assert 4 * w * |rows| == 4 * w + 4 * w * n;
    }
  }

  /** Flattening distributes over splitting the rows. */
  lemma {:induction false} RowsBytesSplit(rows: seq<seq<Rgb16>>, y: nat)
    requires y <= |rows|
    ensures RowsBytes(rows) == RowsBytes(rows[..y]) + RowsBytes(rows[y..])
  {
    if y > 0 {
      RowsBytesSplit(rows[1..], y - 1);
      assert rows[1..][..y - 1] == rows[..y][1..];
      assert rows[1..][y - 1..] == rows[y..];
    }
  }

  /** Byte offset arithmetic of the row-major layout. */
  lemma {:induction false} OffsetBounds(w: nat, y: nat, x: nat, c: nat, n: nat)
    requires y < n && x < w && c < 4
    ensures 4 * (w * y + x) + c == 4 * w * y + (4 * x + c)
    ensures 4 * (w * y + x) + c < 4 * w * n
  {
    assert w * (y + 1) <= w * n by {
      assert y + 1 <= n;
    }
    assert w * y + x < w * (y + 1);
  }

  lemma {:induction false} RowsBytesAt(rows: seq<seq<Rgb16>>, w: nat, y: nat, x: nat, c: nat)
    requires forall j :: 0 <= j < |rows| ==> |rows[j]| == w
    requires y < |rows| && x < w && c < 4
    ensures 4 * (w * y + x) + c < |RowsBytes(rows)|
    ensures RowsBytes(rows)[4 * (w * y + x) + c] == PixelBytes(rows[y][x])[c]
  {
    RowsBytesSplit(rows, y);
    RowsBytesLength(rows[..y], w);
    RowsBytesLength(rows, w);
    RowBytesLayout(rows[y]);
    var prefix := RowsBytes(rows[..y]);
    var rest := RowsBytes(rows[y..]);
    assert rest == RowBytes(rows[y]) + RowsBytes(rows[y + 1..]) by {
      assert rows[y..][0] == rows[y];
      assert rows[y..][1..] == rows[y + 1..];
    }
    var i := 4 * (w * y + x) + c;
    OffsetBounds(w, y, x, c, |rows|);
    assert |prefix| == 4 * w * y;
    assert i == |prefix| + (4 * x + c);
    assert RowsBytes(rows)[i] == rest[4 * x + c];
  }

  /** Reads the four bytes of the pixel at (x, y) back out of a row-major
      buffer whose rows are `w` pixels wide (nothing when the buffer is too
      short to hold that pixel). */
  function PixelOf(buf: seq<U8>, w: nat, x: nat, y: nat): seq<U8>
  {
    if 4 * (w * y + x) + 4 <= |buf| then buf[4 * (w * y + x)..4 * (w * y + x) + 4] else []
  }

  /** The buffer holds 4 bytes per pixel, and reading pixel (x, y) back out
      of it yields the down-converted red, green and blue samples of that
      pixel followed by an opaque alpha. */
  lemma {:induction false} SerializeLayout(g: Grid<Rgb16>)
    requires Valid(g)
    ensures |Serialize(g)| == 4 * g.width * g.height
    ensures forall y, x :: 0 <= y < g.height && 0 <= x < g.width ==>
      PixelOf(Serialize(g), g.width, x, y) == [To8(g.rows[y][x].r), To8(g.rows[y][x].g), To8(g.rows[y][x].b), RgbMax8]
  {
    RowsBytesLength(g.rows, g.width);
    forall y, x | 0 <= y < g.height && 0 <= x < g.width
      ensures PixelOf(Serialize(g), g.width, x, y) == PixelBytes(g.rows[y][x])
    {
      SerializePixel(g, y, x);
    }
  }

  lemma {:induction false} SerializePixel(g: Grid<Rgb16>, y: nat, x: nat)
    requires Valid(g)
    requires y < g.height && x < g.width
    ensures 4 * (g.width * y + x) + 4 <= |Serialize(g)|
    ensures PixelOf(Serialize(g), g.width, x, y) == PixelBytes(g.rows[y][x])
  {
    var i := 4 * (g.width * y + x);
    RowsBytesAt(g.rows, g.width, y, x, 0);
    RowsBytesAt(g.rows, g.width, y, x, 1);
    RowsBytesAt(g.rows, g.width, y, x, 2);
    RowsBytesAt(g.rows, g.width, y, x, 3);
    assert i + 1 == 4 * (g.width * y + x) + 1;
    var buf := Serialize(g);
    assert buf[i..i + 4] == [buf[i], buf[i + 1], buf[i + 2], buf[i + 3]];
  }
}

=== FILE: operation_types.dfy ===
/** The kinds of edit operation, compared and hashed by enum discriminant
    only. */
module OperationTypes {

  /** The source enum declares Exposure, WhiteBalance and Rotation; the
      processor also uses a Contrast kind that the enum does not declare, so
      the model adds it last. */
  datatype OperationType = Exposure | WhiteBalance | Rotation | Contrast

  /** `std::mem::discriminant`: the variant's position in declaration order. */
  function Discriminant(k: OperationType): (d: nat)
    ensures d < 4
    ensures DeclaredInSource(k) <==> d < 3
  {
    match k
    case Exposure => 0
    case WhiteBalance => 1
    case Rotation => 2
    case Contrast => 3
  }

  /** `PartialEq::eq`: equal discriminants, which holds exactly for the
      same variant. */
  predicate Eq(a: OperationType, b: OperationType)
    ensures Eq(a, b) <==> a == b
  {
    Discriminant(a) == Discriminant(b)
  }

  /** `Hash::hash`: feeds the discriminant, and nothing else, to the hasher,
      whose state is modelled as the sequence of values written to it. */
  function Hash(state: seq<int>, k: OperationType): (r: seq<int>)
    ensures |r| == |state| + 1 && r[..|state|] == state
    ensures r[|state|] == Discriminant(k)
  {
    state + [Discriminant(k)]
  }

  /** Whether the kind is one the source enum actually declares: the model
      adds Contrast after them, so their discriminants are unchanged. */
  predicate DeclaredInSource(k: OperationType)
  {
    !k.Contrast?
  }

  /** The equality the `Eq` marker asserts is an equivalence relation. */
  lemma {:induction false} EqIsEquivalence(a: OperationType, b: OperationType, c: OperationType)
    ensures Eq(a, a)
    ensures Eq(a, b) ==> Eq(b, a)
    ensures Eq(a, b) && Eq(b, c) ==> Eq(a, c)
  {
  }

  /** Equal kinds hash identically from any hasher state. */
  lemma {:induction false} EqualKindsHashEqually(state: seq<int>, a: OperationType, b: OperationType)
    requires Eq(a, b)
    ensures Hash(state, a) == Hash(state, b)
  {
  }

  /** The declared kinds are exactly Exposure, WhiteBalance and Rotation. */
  lemma {:induction false} DeclaredKindsAreClosed(k: OperationType)
    ensures DeclaredInSource(k) <==> k == Exposure || k == WhiteBalance || k == Rotation
  {
  }
}

=== FILE: rust_raw.dfy ===
/** The earlier prototype `MyRawImage`: a decoded image that is rotated in
    place, brightened in place, and read out as an RGBA8 buffer, plus its
    own `decode_raw_image` with the same orientation rule as the processor. */
module RustRaw {
  import opened Wrappers
  import opened Channels
  import opened Grids
  import opened Images
  import Decoding

  /** `width()` and `height()` report `dynamicImage`'s dimensions. */
  datatype MyRawImage = MyRawImage(dynamicImage: Image, metadata: Decoding.Metadata)

  /** What `ping` answers. */
  const PingReply: string := "pong"

  /** `rotate_image`: the stored image is replaced by its clockwise quarter
      turn, so the reported width and height swap. */
  function RotateImage(m: MyRawImage): (r: MyRawImage)
    ensures r.metadata == m.metadata
    ensures r.dynamicImage.width == m.dynamicImage.height && r.dynamicImage.height == m.dynamicImage.width
    ensures forall y, x :: 0 <= y < m.dynamicImage.height && 0 <= x < m.dynamicImage.width ==>
      r.dynamicImage.rows[x][m.dynamicImage.height - 1 - y] == m.dynamicImage.rows[y][x]
  {
    m.(dynamicImage := Rotate90(m.dynamicImage))
  }

  /** Four calls of `rotate_image` restore the image, and so its
      dimensions. */
  lemma {:induction false} FourRotationsRestore(m: MyRawImage)
    ensures RotateImage(RotateImage(RotateImage(RotateImage(m)))) == m
  {
    Rotate90FourTimes(m.dynamicImage);
  }

  /** `image_as_rgba8`: the stored image, copied and serialised; reading a
      pixel back out of the buffer gives that pixel's down-converted
      samples. */
  function ImageAsRgba8(m: MyRawImage): (bytes: seq<U8>)
    ensures |bytes| == 4 * m.dynamicImage.width * m.dynamicImage.height
    ensures forall y, x :: 0 <= y < m.dynamicImage.height && 0 <= x < m.dynamicImage.width ==>
      PixelOf(bytes, m.dynamicImage.width, x, y) == PixelBytes(m.dynamicImage.rows[y][x])
  {
    SerializeLayout(m.dynamicImage);
    Serialize(m.dynamicImage)
  }

  /** The image library's `brighten` on one sample: add, then saturate. */
  function BrightenChannel(v: U16, amount: nat): (r: U16)
    ensures v <= r
    ensures r == v + amount || r == RgbMax16
    ensures v + amount <= RgbMax16 ==> r == v + amount
  {
    if v + amount <= RgbMax16 then v + amount else RgbMax16
  }

  function BrightenPixel(p: Rgb16, amount: nat): Rgb16
  {
    Rgb16(BrightenChannel(p.r, amount), BrightenChannel(p.g, amount), BrightenChannel(p.b, amount))
  }

  /** `increase_exposure`: every colour sample brightened by 1000. */
  function IncreaseExposure(m: MyRawImage): (r: MyRawImage)
    ensures r.metadata == m.metadata
    ensures r.dynamicImage.width == m.dynamicImage.width && r.dynamicImage.height == m.dynamicImage.height
    ensures forall y, x :: 0 <= y < m.dynamicImage.height && 0 <= x < m.dynamicImage.width ==>
      var p, q := m.dynamicImage.rows[y][x], r.dynamicImage.rows[y][x];
      p.r <= q.r && p.g <= q.g && p.b <= q.b
    ensures forall y, x :: 0 <= y < m.dynamicImage.height && 0 <= x < m.dynamicImage.width ==>
      var p, q := m.dynamicImage.rows[y][x], r.dynamicImage.rows[y][x];
      q.r == BrightenChannel(p.r, 1000) && q.g == BrightenChannel(p.g, 1000) && q.b == BrightenChannel(p.b, 1000)
  {
    var img: Image := MapPixels(m.dynamicImage, (p: Rgb16) => BrightenPixel(p, 1000));
    m.(dynamicImage := img)
  }

  /** The prototype's `decode_raw_image`: the same steps and error order as
      the processor's decoder, without progress events. */
  function DecodeRawImage(file: Decoding.RawFile, develop: Decoding.SensorImage -> Result<Image, string>)
    : (r: Result<MyRawImage, Decoding.DecodeError>)
    requires Decoding.OrientationReadable(file, develop)
    ensures file.decoder.None? ==> r == Failure(Decoding.NoDecoder)
    ensures file.decoder.Some? && file.decoder.value.metadata.Failure? ==>
      r == Failure(Decoding.MetadataFailure(file.decoder.value.metadata.error))
    ensures file.decoder.Some? && file.decoder.value.metadata.Success? && file.decoder.value.rawImage.Failure? ==>
      r == Failure(Decoding.ImageExtractionFailure(file.decoder.value.rawImage.error))
    ensures (&& file.decoder.Some? && file.decoder.value.metadata.Success? && file.decoder.value.rawImage.Success?
             && develop(file.decoder.value.rawImage.value).Failure?) ==>
      r == Failure(Decoding.DevelopmentFailure(develop(file.decoder.value.rawImage.value).error))
    ensures (&& file.decoder.Some? && file.decoder.value.metadata.Success? && file.decoder.value.rawImage.Success?
             && develop(file.decoder.value.rawImage.value).Success?) ==>
      var metadata := file.decoder.value.metadata.value;
      r == Success(MyRawImage(Decoding.Orient(develop(file.decoder.value.rawImage.value).value, metadata.orientation.value), metadata))
    ensures r.Success? ==> r.value.metadata == file.decoder.value.metadata.value
  {
    match file.decoder
    case None => Failure(Decoding.NoDecoder)
    case Some(decoder) =>
      match decoder.metadata
      case Failure(e) => Failure(Decoding.MetadataFailure(e))
      case Success(metadata) =>
        match decoder.rawImage
        case Failure(e) => Failure(Decoding.ImageExtractionFailure(e))
        case Success(raw) =>
          match develop(raw)
          case Failure(e) => Failure(Decoding.DevelopmentFailure(e))
          case Success(img) =>
            Success(MyRawImage(Decoding.Orient(img, metadata.orientation.value), metadata))
  }

  /** The prototype and the processor decode every file to the same
      outcome: same error, or same metadata and the same oriented image. */
  lemma {:induction false} AgreesWithProcessorDecode(file: Decoding.RawFile, develop: Decoding.SensorImage -> Result<Image, string>)
    requires Decoding.OrientationReadable(file, develop)
    ensures var mine, theirs := DecodeRawImage(file, develop), Decoding.DecodeRawImage(file, develop).result;
      && (mine.Success? <==> theirs.Success?)
      && (mine.Failure? ==> mine.error == theirs.error)
      && (mine.Success? ==> mine.value == MyRawImage(theirs.value.image, theirs.value.metadata))
  {
  }
}

=== FILE: wrappers.dfy ===
/** Failure-carrying values used across the model: `Option` for values a
    lookup may not find and `Result` for the error returns of the source. */
module Wrappers {

  datatype Option<+T> = None | Some(value: T)

  datatype Result<+R, +E> = Success(value: R) | Failure(error: E)
}
